=== FILE: README.md ===
# FITS header parsing and image display, modelled in Dafny

This project models the self-contained logic of a small Java FITS toolkit (the
Flexible Image Transport System, the astronomy image format). It covers three parts.

- **The textual header parser** (`FITSHeaderParser`). A header embedded in another
  document, one card per line, is split at newlines. Each line is padded to the
  80-column card image of section 4.1 of the FITS Standard 4.0. END cards are
  skipped and every other card is decoded, in order, by the FITS library's keyword
  parser. The first card that parser rejects aborts the parse. The accessors then
  project a keyword's kind-tagged value to its Java payload.
- **The current image class** (`FITSImage`). It covers:
  - the structural checks and keyword reads of `load`;
  - the min/max scan with its fixed seeds;
  - the lenient display-coordinate lookup `getValue`;
  - the linear plate-scale transform between pixels and sky arc-seconds, in both directions;
  - the field size and radius;
  - the grey-scale rendering, which windows each sample to 0..255, flips the rows so
    north is up and packs opaque grey 0xAARRGGBB words.
- **The earlier image class** (`org_estar_fits/FITSImage`). It has the same scan,
  windowing and load checks, but renders in storage order and packs the intensity
  as `(v << 24) | (v << 16) | v`.

The modules are:
- `Wrappers`: Option, Result, Outcome.
- `JavaNumerics`: Java's truncating `(int)` cast and `/ 2`, and the sign bit of an `int`.
- `Header`: keyword values, first-match lookup and the kind-tagged payload.
- `HeaderParser`: the line splitter, padding, END filter, fail-fast parse loop and accessors.
- `Pixels`: the scan, the windowing and the byte lanes of a pixel word.
- `Raster`: row-major index arithmetic and the vertical flip.
- `DataUnits`: the decoded data unit and the type and axis checks.
- `Image`: the current image class.
- `LegacyImage`: the earlier image class.

Two pieces of external code enter as function parameters:
- `parseCard`: the FITS library's keyword grammar, from a card image to a keyword or an error;
- `raArcsec` / `decArcsec`: the RA/Dec string parsers, from a keyword's text to arc-seconds.

Samples and arc-second quantities are `real`. Pixel indices are `int`. Pixel words
are `bv32`, the bit pattern of a Java `int`.

## Model

| member | source | states |
|---|---|---|
| HeaderParser.TokenLength | org_estar_fits/FITSHeaderParser.java:48-52 | the first token ends at the first newline: no newline before it, a newline (or the end of the text) at it |
| HeaderParser.Tokens | org_estar_fits/FITSHeaderParser.java:48-52 | every line the splitter yields is non-empty and holds no newline |
| HeaderParser.TokensSplitAtNewline | org_estar_fits/FITSHeaderParser.java:48-52 | a newline splits the lines into those before it and those after it, so a run of newlines yields no empty line |
| HeaderParser.TokenLengthBeforeNewline | org_estar_fits/FITSHeaderParser.java:48-52 | appending a newline and more text does not lengthen the first line |
| HeaderParser.TokensOfToken | org_estar_fits/FITSHeaderParser.java:48-52 | a single non-empty line without newlines is split into exactly itself |
| HeaderParser.TokensJoinRoundTrip | org_estar_fits/FITSHeaderParser.java:48-52 | splitting the newline-joined text of non-empty lines gives the same lines back, in order |
| HeaderParser.TokensAroundLine | org_estar_fits/FITSHeaderParser.java:48-52 | a line between two newlines becomes one line, between the lines before it and the lines after it |
| HeaderParser.Padded | org_estar_fits/FITSHeaderParser.java:54-57 | a card is at least 80 columns wide and exactly 80 for a shorter line, starts with the line, is blank after it, and is the line itself when that is 80 or more wide (no truncation) |
| HeaderParser.PadCard | org_estar_fits/FITSHeaderParser.java:54-57 | the append-one-space loop produces exactly the padded card image |
| HeaderParser.EndLineRecognised | org_estar_fits/FITSHeaderParser.java:54-60 | a line becomes an END card exactly when it is a bare "END" or starts with "END " |
| HeaderParser.CardOf | org_estar_fits/FITSHeaderParser.java:60 | a line yields no card exactly when its padded image is an END card, and otherwise yields that image |
| HeaderParser.CardsAreCardImages | org_estar_fits/FITSHeaderParser.java:54-60 | every card handed to the keyword parser is at least 80 columns wide and is not an END card |
| HeaderParser.CardsAppend | org_estar_fits/FITSHeaderParser.java:49-75 | the cards of concatenated lines are the concatenation of their cards, in order |
| HeaderParser.CardsSkipEndLine | org_estar_fits/FITSHeaderParser.java:49-75 | an END line contributes no card, and the lines after it still do |
| HeaderParser.EndLineDoesNotStop | org_estar_fits/FITSHeaderParser.java:49-75 | an END line inside the header text does not end the parse: the cards are those before it followed by those after it |
| HeaderParser.ParseLines | org_estar_fits/FITSHeaderParser.java:49-75 | the parse loop appends at most one keyword per line, and a card it stops at is a padded non-END card image that the keyword parser rejected |
| HeaderParser.FirstReject | org_estar_fits/FITSHeaderParser.java:63-71 | the position of the first card the keyword parser rejects: every card before it is accepted |
| HeaderParser.FailFastCons | org_estar_fits/FITSHeaderParser.java:63-73 | an accepted card in front of a fail-fast run extends the run by its keyword |
| HeaderParser.ParseLinesFailFast | org_estar_fits/FITSHeaderParser.java:49-75 | the parse loop decodes exactly the cards before the first rejection, in order, and names the rejected card if there is one |
| HeaderParser.Parse | org_estar_fits/FITSHeaderParser.java:38-76 | parse leaves a header, so getKeywords no longer throws, whose keywords are the decoded cards before the first rejection, in input order. It succeeds exactly when every card is accepted, and then the keyword count equals the card count; otherwise the error carries the rejected card |
| HeaderParser.ParseDiscardsPrevious | org_estar_fits/FITSHeaderParser.java:46 | parse's result does not depend on the header held before the call |
| HeaderParser.Keywords | org_estar_fits/FITSHeaderParser.java:83-86 | getKeywords throws (None) exactly before the first parse, when the header is still null; what it enumerates after a parse is stated by Parse |
| HeaderParser.KeywordCount | org_estar_fits/FITSHeaderParser.java:78-86 | getKeywordCount throws exactly when getKeywords does, and otherwise is the number of keywords getKeywords enumerates |
| HeaderParser.NewParserHoldsNothing | org_estar_fits/FITSHeaderParser.java:22-31 | on a freshly constructed parser both getKeywords and getKeywordCount throw |
| HeaderParser.KeywordValue | org_estar_fits/FITSHeaderParser.java:88-124 | getKeywordValue projects the value of the FIRST keyword with that name, and no earlier keyword has the name |
| Header.Payload | org_estar_fits/FITSHeaderParser.java:100-124 | per kind, in both directions: BOOLEAN, INTEGER and REAL are boxed, COMMENT and STRING give a string, DATE a date, NONE null; each payload carries the keyword's own value |
| Header.FirstIndex | org_estar_fits/FITSHeaderParser.java:99 | the position of the first keyword with a name: no earlier keyword has it |
| Header.Lookup | org_estar_fits/FITSHeaderParser.java:99 | lookup is null exactly when no keyword has the name, and otherwise finds a keyword of the header with that name |
| Header.FirstIndexAppend | org_estar_fits/FITSHeaderParser.java:99 | the first match in a concatenation is in the first part when it has one, else in the second |
| Header.LookupFirstMatchWins | org_estar_fits/FITSHeaderParser.java:73-99 | keywords appended after a match never change what lookup finds |
| Header.LookupSkipsNonMatching | org_estar_fits/FITSHeaderParser.java:73-99 | keywords before the first match do not affect what lookup finds |
| HeaderParser.KeywordValueBoolean | org_estar_fits/FITSHeaderParser.java:127-135 | the strict getter agrees with the boxed getKeywordValue |
| HeaderParser.KeywordValueDate | org_estar_fits/FITSHeaderParser.java:137-145 | the strict getter agrees with getKeywordValue |
| HeaderParser.KeywordValueInteger | org_estar_fits/FITSHeaderParser.java:147-155 | the strict getter agrees with the boxed getKeywordValue |
| HeaderParser.KeywordValueDouble | org_estar_fits/FITSHeaderParser.java:157-165 | the strict getter agrees with the boxed getKeywordValue |
| HeaderParser.KeywordValueString | org_estar_fits/FITSHeaderParser.java:167-175 | the strict getter agrees with getKeywordValue for STRING and COMMENT keywords |
| Pixels.ScanMinMax | FITSImage.java:165-179 | the scan leaves min = the smallest of 65535 and all samples, and max = the largest of 0 and all samples |
| Image.SetMinMaxPixelValue | FITSImage.java:165-179 | the stored window becomes the scan result, and no other field changes |
| Pixels.ScanResultUnique | FITSImage.java:165-179 | the scan result is determined by the samples |
| Pixels.ScanOfConstant | FITSImage.java:165-179 | a non-empty constant matrix of v in [0, 65535] scans to min = max = v |
| Pixels.ScanOfEmpty | FITSImage.java:169-171 | an empty matrix keeps the seeds, so min > max afterwards |
| Pixels.ScanWindowHoldsSamples | FITSImage.java:165-179 | every sample lies inside the scanned window |
| Pixels.Intensity | FITSImage.java:427-432 | the intensity is in 0..255, is 0 below the window and is 255 above it; a degenerate window (minimum = maximum = sample) gives 0, as the cast of the NaN does |
| Pixels.IntensityEndpoints | FITSImage.java:419-432 | the window ends map to 0 and 255 |
| Pixels.IntensityMonotone | FITSImage.java:427-432 | windowing never reverses the order of two samples |
| Pixels.IntensityInsideWindow | FITSImage.java:419-432 | inside a window min < max a sample is stretched linearly and truncated, not clipped |
| Pixels.Lane | FITSImage.java:435 | an intensity fits one byte lane, its top bit is set exactly from 128 up, and 0 and 255 give 0x00 and 0xFF |
| Pixels.Argb | FITSImage.java:435 | each of the four bytes of the packed word lands in its own lane |
| Pixels.ArgbOfLanes | FITSImage.java:435 | packing a word's own four lanes gives the word back |
| Image.OpaqueGrey | FITSImage.java:433-435 | the current packing is opaque (alpha 0xFF) with red = green = blue = the intensity |
| Raster.CellInRange | FITSImage.java:418-426 | every cell (x, y) of the frame has a flat index inside the buffer |
| Raster.FlipIndex | FITSImage.java:425-426 | the flip maps buffer indices into the buffer |
| Raster.FlipIndexOfCell | FITSImage.java:425-426 | the flip sends cell (x, y) to cell (x, height - 1 - y) |
| Raster.FlipInvolution | FITSImage.java:425-426 | flipping twice is the identity |
| Raster.FlipBijective | FITSImage.java:418-436 | the flip is injective on the buffer and every output slot is hit, so each slot is written exactly once |
| Image.Render | FITSImage.java:411-439 | rendering yields width * height words, each opaque with equal red, green and blue |
| Image.RenderWritesFlippedCell | FITSImage.java:421-436 | the sample at storage (x, y) is windowed and written at output row height - 1 - y, same column |
| Image.RenderShowsGetValue | FITSImage.java:315-325 | the output pixel at display (x, y) shows the sample getValue(x, y) returns |
| Image.DefaultRender | FITSImage.java:395-398 | the no-argument rendering yields width * height words, each an opaque grey of some level 0..255 |
| Image.DefaultRenderCell | FITSImage.java:395-398 | the no-argument rendering writes each cell as the two-argument one does, windowed by the stored min and max |
| Image.PixelToSky | FITSImage.java:246-263 | null exactly outside the inclusive frame or without a field centre; otherwise the offset from the centre is (width/2 - x) * xPS and (height/2 - y) * yPS, halving toward zero |
| Image.SkyToPixel | FITSImage.java:286-305 | null exactly when a coordinate or the field centre is missing; otherwise each pixel coordinate is the offset from the centre divided by the plate scale, plus the integer-halved image centre, truncated toward zero (not floored) |
| Image.SkyToPixelNearColumnZero | FITSImage.java:303 | a position less than one step past column 0, on either side, maps to column 0 |
| Image.SkyToPixelHalfPixelLeftOfFrame | FITSImage.java:294-304 | width 10, centre 0, 1"/pixel: RA 5.5, half a pixel left of column 0, maps to column 0 where flooring would give -1 |
| Image.SkyToPixelInvertsPixelToSky | FITSImage.java:258-263 | a pixel of the frame mapped to the sky and back is the same pixel (exact reals, non-zero scales) |
| Image.AxisRoundTrip | FITSImage.java:258-263 | on one axis, the sky coordinate of a pixel maps back to exactly that pixel |
| Image.PixelToSkyNearlyInvertsSkyToPixel | FITSImage.java:294-304 | a sky position mapped to a frame pixel and back differs by less than one plate-scale step per axis |
| Image.RaNearlyInverted | FITSImage.java:294-304 | on the RA axis, a sky position mapped to a frame pixel and back differs by less than one x plate-scale step |
| Image.DecNearlyInverted | FITSImage.java:294-304 | on the Dec axis, a sky position mapped to a frame pixel and back differs by less than one y plate-scale step |
| Image.TruncStepError | FITSImage.java:303-304 | truncating a pixel coordinate moves the sky position by less than one step |
| JavaNumerics.Trunc | FITSImage.java:303-304 | the int cast truncates toward zero, losing less than one unit |
| JavaNumerics.TruncIsTowardZero | FITSImage.java:303-304 | Trunc is the only integer that truncates its argument toward zero |
| JavaNumerics.Half | FITSImage.java:258-259 | int halving truncates toward zero |
| JavaNumerics.TruncOfInteger | FITSImage.java:303-304 | the int cast of an integer-valued double is exact |
| JavaNumerics.TruncError | FITSImage.java:303-304 | truncation changes a value by less than one |
| Image.FieldSizeX | FITSImage.java:353-356 | the field size in RA vanishes exactly for zero width or zero x plate scale, and is non-negative when both are |
| Image.FieldSizeY | FITSImage.java:364-367 | the field size in Dec vanishes exactly for zero height or zero y plate scale, and is non-negative when both are |
| Image.FieldRadiusSquared | FITSImage.java:335-345 | the squared radius is non-negative |
| Image.FieldSizeSpansFrame | FITSImage.java:353-367 | the field sizes are the sky differences between frame corners (0, 0) and (width, height) |
| Image.FieldRadiusIsCornerToCorner | FITSImage.java:335-345 | the radius as written is the corner-to-corner diagonal of the frame |
| Image.FieldRadiusIsTwiceCentreToCorner | FITSImage.java:327-345 | on a 100 x 100 frame at 1"/pixel the documented radius is sqrt(5000) but sqrt(20000) is returned |
| Image.DistanceSquared | FITSImage.java:340-343 | squared sky distances are non-negative |
| Image.CentreToCornerRadiusSquared | FITSImage.java:327-345 | the documented centre-to-corner radius, squared, is non-negative |
| Image.CentreToCornerRadiusIsCentreToCorner | FITSImage.java:327-345 | for even dimensions the centre pixel maps to the field centre, and the corrected radius is its distance to corner (0, 0) |
| Image.GetValue | FITSImage.java:315-325 | getValue reads storage index (height - (y + 1)) * width + x and returns 0.0 exactly when that index is outside the buffer |
| Image.GetValueWraps | FITSImage.java:320-323 | a column past the right edge reads the display row above (the next storage row) |
| Image.GetValueOutOfFrameCounterexample | FITSImage.java:308-324 | on a 2 x 2 image the out-of-frame point (2, 1) returns the sample shown at (0, 0), not 0.0 |
| Image.GetValueInFrame | FITSImage.java:308-324 | 0.0 for any x or y outside the frame; inside it, the sample under display (x, y), equal to getValue |
| Image.TextKeyword | FITSImage.java:501-532 | a keyword yields text exactly when it is present and of a text kind |
| Image.ReadOptional | FITSImage.java:501-532 | reading the optional keywords never changes the dimensions, the samples or the window |
| Image.Load | FITSImage.java:487-560 | load succeeds exactly for a 2-D IMAGE unit with NAXIS1 and NAXIS2 present. A missing NAXIS1 changes nothing; a missing NAXIS2 keeps the width just read from NAXIS1; the type error comes before the axis error; on success the dimensions come from the data axes; the window is untouched |
| DataUnits.CheckStructure | FITSImage.java:533-543 | a unit passes exactly when it is IMAGE and 2-D; the type error comes first |
| Image.LoadReadsOptionalKeywords | FITSImage.java:501-532 | each absent optional keyword leaves its field as it was; FCRA and FCDEC with text set the parsed position and without text leave the field; XPS and YPS set the real; OBJECT sets its text or null; DATE-OBS sets its date or null |
| Image.LoadFreshDefaults | FITSImage.java:75-95 | on a fresh image, absent optional keywords leave null and 0.0 |
| Image.LoadedImageIsConsistent | FITSImage.java:544-553 | after a successful load there is one sample per pixel |
| LegacyImage.SetMinMaxPixelValue | org_estar_fits/FITSImage.java:120-134 | the same seeds and scan as the current revision, and no other field changes |
| LegacyImage.Load | org_estar_fits/FITSImage.java:233-272 | succeeds exactly for a 2-D IMAGE unit with NAXIS1 and NAXIS2 present; failures keep the NAXIS dimensions; success takes the dimensions from the data axes |
| LegacyImage.LoadAgreesWithCurrent | org_estar_fits/FITSImage.java:241-259 | both revisions accept and reject the same units with the same error, and leave the same dimensions and samples |
| LegacyImage.LegacyWord | org_estar_fits/FITSImage.java:195 | the intensity lands in the alpha, red and blue lanes, green stays 0, and 128 and up make the int negative |
| LegacyImage.LegacyWordIsNotGrey | org_estar_fits/FITSImage.java:194-195 | black is fully transparent and white is opaque magenta (0xFFFF00FF), where opaque grey was meant |
| LegacyImage.Render | org_estar_fits/FITSImage.java:176-198 | width * height words, each with green 0 and alpha = red = blue |
| LegacyImage.RenderIsPointwise | org_estar_fits/FITSImage.java:186-196 | output word i depends on sample i alone: no flip |
| LegacyImage.RenderIsCurrentUnflipped | org_estar_fits/FITSImage.java:186-196 | storage cell (x, y) shows at output row y here and at row height - 1 - y in the current revision, with the same intensity |
| LegacyImage.DefaultRender | org_estar_fits/FITSImage.java:162-165 | the no-argument rendering windows every sample by the stored min and max |

## Left out

- The `load(String)`, `load(URL)` and `load(DataInput)` overloads, and the decoding of FITS files, HDUs and matrices by the FITS library. These are file, stream and network I/O. A decoded data unit is the record `DataUnits.DataUnit`: type, axes and samples.
- The FITS card grammar and type inference of the FITS library's keyword class. This is external code and enters as the `parseCard` parameter.
- RA/Dec parsing and formatting. This is external code. Parsing enters as the `raArcsec` / `decArcsec` parameters, and sky positions are real arc-seconds.
- `FITSHeaderLoader` (both copies) and `FITSException`. They are I/O, null-guarded delegations and exception wrapping.
- IEEE float behaviour. Samples, scales and offsets are exact reals: there is no float rounding, Infinity or NaN. The one NaN case of the windowing is kept: when min == max, a sample equal to both has intensity 0, which is the value the int cast of NaN gives.
- `Math.sqrt` in getFieldRadius. The radius is stated squared.
- AWT `MemoryImageSource` construction, `toString`, `java.util.Date` internals, and the trivial getters (getWidth, getFCRA, getObjectName, ...). These are library construction, formatting, and returning a field.
- The `default` branch of getKeywordValue. The kind type is closed, so no unknown kind exists.
- Header.Lookup: the library's header lookup is assumed to return the FIRST keyword with the name. The library is not part of this model.
- HeaderParser.KeywordValue: requires a parsed header that holds the keyword. Before the first parse the source throws a NullPointerException on the null header. For a missing keyword it dereferences the null lookup result. Neither exception is modelled.
- HeaderParser.KeywordValueBoolean, KeywordValueDate, KeywordValueInteger, KeywordValueDouble, KeywordValueString: these require a parsed header holding the keyword, of the getter's kind. Before the first parse the source throws a NullPointerException on the null header, and it throws another on a missing keyword. Neither is modelled, and neither is what the library getter does on a kind mismatch.
- Image.Load: requires NAXIS1 and NAXIS2 to be integer cards and XPS and YPS to be real cards when present. The library getters' behaviour on other kinds is not modelled.
- Image.Load: a failure inside the library's sample conversion (`getFloatValues`) is not modelled. The model's data unit is already decoded.
- Image.ReadOptional: FCRA, FCDEC, OBJECT and DATE-OBS cards of another kind are assumed to read as null, which is what the library's string and date getters are taken to return for such cards. So a non-text FCRA or FCDEC leaves the field centre unchanged, and a non-text OBJECT or non-date DATE-OBS sets the field to null.
- LegacyImage.Load: requires NAXIS1 and NAXIS2 to be integer cards when present, as for the current revision.
- Image.GetValue: requires the buffer to cover width * height. The source would throw on a shorter array. Java `int` overflow of the index product is not modelled.
- Image.Render: requires non-negative dimensions and a covering buffer. The source behaves as follows in the excluded cases, none of which is modelled:
  - One dimension negative and the other 0: it returns an empty image, because width * height is 0 and the loops never run.
  - One dimension negative and the other positive: it throws while allocating a negative-size pixel array.
  - Both dimensions negative: it returns width * height zero words without reading a sample, because the row loop never runs.
  - A short buffer: it throws.
  Java `int` overflow of `width * height` is not modelled either.
- LegacyImage.Render: requires non-negative dimensions and a buffer covering width * height samples. Its single loop runs over i < width * height, so the excluded cases behave differently from Image.Render. None of them is modelled:
  - One dimension negative and the other 0: it returns an empty image.
  - One dimension negative and the other positive: it throws while allocating the pixel array.
  - Both dimensions negative: the product is positive, so the loop reads samples. It renders them when the buffer covers the product, and throws on a null or short buffer.
- Image.SkyToPixel: requires non-zero plate scales when every input is present. A zero scale gives an Infinity or NaN double in the source: ±Infinity casts to 2^31 - 1 or -2^31, and NaN (a zero offset over a zero scale) casts to 0.
- Image.SetMinMaxPixelValue: on an image that was never loaded the source dereferences a null array. The model scans an empty buffer instead and keeps the seeds.
- LegacyImage.SetMinMaxPixelValue: the same as for the current revision. On a never-loaded image the source throws a NullPointerException, and the model scans an empty buffer.
- LegacyImage.Load: a failure inside the library's sample conversion (`getFloatValues`) is not modelled, as for the current revision. The model's data unit is already decoded.
- JavaNumerics.Trunc: Java's `(int)` cast of a double saturates at -2^31 and 2^31 - 1. Trunc is unbounded, so SkyToPixel gives the exact truncated coordinate where Java would clamp it. This matters only for positions more than 2^31 pixels from the frame.
- HeaderParser.Padded: counts characters, where `StringBuffer.length()` counts UTF-16 code units. The two differ only for characters outside the Basic Multilingual Plane, which FITS cards, being ASCII, never contain.
- Image.FieldRadiusSquared, Image.DistanceSquared, Image.CentreToCornerRadiusSquared: only non-negativity is stated on the functions themselves. Their meaning is stated by the lemmas listed in the table.

In these places the code behaves differently from what a reader of a FITS library might expect. The model follows the code:
- load makes no check that the sample count equals width * height. `WellFormed` states what a decoder delivers.
- An END card does not stop the parse. Later lines are still parsed.
- A line of 80 or more columns is passed through untruncated.
- Intensities and pixel positions are truncated toward zero, not rounded.
- load does not reset the min/max window. A failed parse keeps the keywords decoded before the rejected card.

## Findings

| source | as written | input that shows it | evidently intended | confidence | as-written member | corrected member |
|---|---|---|---|---|---|---|
| FITSImage.java:327-345 | getFieldRadius returns sqrt(sizeX² + sizeY²), the full diagonal of the frame | a 100 x 100 frame at 1"/pixel: 141.4" instead of 70.7" | the documented radius from the field centre to one corner, half the diagonal | medium, not executed | Image.FieldRadiusIsTwiceCentreToCorner | Image.CentreToCornerRadiusIsCentreToCorner |
| FITSImage.java:308-324 | getValue only range-checks the flat index, so an x past the right edge wraps into the display row above (the next storage row) | width = height = 2, samples [1, 2, 3, 4]: getValue(2, 1) = 3.0 = getValue(0, 0) | 0.0 whenever x or y is out of range, as documented | medium, not executed | Image.GetValueOutOfFrameCounterexample | Image.GetValueInFrame |
| org_estar_fits/FITSImage.java:194-195 | the word `(v << 24) \| (v << 16) \| v` puts the intensity in alpha, red and blue and leaves green 0 | v = 0 gives a transparent pixel; v = 255 gives 0xFFFF00FF, opaque magenta | an opaque grey `(255 << 24) \| (v << 16) \| (v << 8) \| v`, as the later revision writes | medium, not executed | LegacyImage.LegacyWordIsNotGrey | Image.OpaqueGrey |

=== FILE: data_unit.dfy ===
/** The decoded primary HDU as both image revisions see it: the data unit's
    type, its axis lengths and its samples as floats, and the structural
    checks each revision makes before copying the samples. */
module DataUnits {
  import opened Wrappers
  import opened Header

  /** The data unit's type code; only IMAGE is accepted. */
  datatype UnitType = ImageUnit | OtherUnit(code: int)

  /** A decoded data unit: type, axis lengths (NAXISn) and the flattened
      samples, fastest axis first. */
  datatype DataUnit = DataUnit(unitType: UnitType, axes: seq<int>, values: seq<real>)

  /** A 2-D unit whose sample count matches its axes, as a decoder delivers. */
  predicate WellFormed(du: DataUnit) {
    |du.axes| == 2 ==> 0 <= du.axes[0] && 0 <= du.axes[1] && |du.values| == du.axes[0] * du.axes[1]
  }

  /** Why a load stops: a mandatory keyword is absent (a null dereference in
      the source), the unit is not an image, or it is not 2-D. */
  datatype LoadError =
    | MissingKeyword(name: string)
    | IllegalHduType(unitType: UnitType)
    | IllegalAxisCount(count: nat)

  /** NAXIS1 and NAXIS2, when present, are integer cards (the integer getter
      is applied to them unconditionally). */
  predicate NaxisReadable(h: Header) {
    && (Present(h, "NAXIS1") ==> ValueOf(h, "NAXIS1").IntValue?)
    && (Present(h, "NAXIS2") ==> ValueOf(h, "NAXIS2").IntValue?)
  }

  /** The type check, then the axis-count check. */
  function CheckStructure(du: DataUnit): (o: Outcome<LoadError>)
    ensures o.Pass? <==> du.unitType == ImageUnit && |du.axes| == 2
    ensures du.unitType != ImageUnit ==> o == Fail(IllegalHduType(du.unitType))
    ensures du.unitType == ImageUnit && |du.axes| != 2 ==> o == Fail(IllegalAxisCount(|du.axes|))
  {
    if du.unitType != ImageUnit then Fail(IllegalHduType(du.unitType))
    else if |du.axes| != 2 then Fail(IllegalAxisCount(|du.axes|))
    else Pass
  }
}

=== FILE: header.dfy ===
/** The decoded FITS header: a kind-tagged keyword value per card, kept in
    card order, looked up by name with first-match precedence, and the
    accessors that project a keyword to its Java payload. */
module Header {
  import opened Wrappers

  /** A calendar timestamp (java.util.Date), as milliseconds since the epoch. */
  datatype Date = Date(millis: int)

  /** The value of one card; the constructor is the keyword's kind
      (NONE, BOOLEAN, INTEGER, REAL, STRING, COMMENT, DATE) and carries the
      payload that kind makes valid. */
  datatype Value =
    | NoValue
    | BoolValue(b: bool)
    | IntValue(i: int)
    | RealValue(r: real)
    | StringValue(s: string)
    | CommentValue(text: string)
    | DateValue(d: Date)

  /** One decoded card: its keyword name and typed value. */
  datatype Keyword = Keyword(name: string, value: Value)

  /** The kinds whose payload `getString` returns. */
  predicate IsText(v: Value) {
    v.StringValue? || v.CommentValue?
  }

  /** The text of a STRING or COMMENT value. */
  function TextOf(v: Value): string
    requires IsText(v)
  {
    if v.StringValue? then v.s else v.text
  }

  /** Keywords in card order; names may repeat (COMMENT, HISTORY, ...). */
  type Header = seq<Keyword>

  /** What `getKeywordValue` hands back as a java.lang.Object: null, or a
      boxed Boolean, Integer or Double, a String, or a Date. */
  datatype Boxed =
    | Null
    | BoxedBoolean(b: bool)
    | BoxedInteger(i: int)
    | BoxedDouble(d: real)
    | JavaString(s: string)
    | JavaDate(date: Date)

  /** Index of the first keyword called `name`, or |h| when there is none. */
  function FirstIndex(h: Header, name: string): (i: nat)
    ensures i <= |h|
    ensures i < |h| ==> h[i].name == name
    ensures forall j :: 0 <= j < i ==> h[j].name != name
  {
    if |h| == 0 then 0
    else if h[0].name == name then 0
    else 1 + FirstIndex(h[1..], name)
  }

  /** The header unit's keyword lookup: the first card with that name, or null. */
  function Lookup(h: Header, name: string): (r: Option<Keyword>)
    ensures r.None? <==> forall j :: 0 <= j < |h| ==> h[j].name != name
    ensures r.Some? ==> r.value.name == name && r.value in h
  {
    var i := FirstIndex(h, name);
    if i < |h| then Some(h[i]) else None
  }

  predicate Present(h: Header, name: string) {
    Lookup(h, name).Some?
  }

  /** The value of the first keyword called `name`. */
  function ValueOf(h: Header, name: string): Value
    requires Present(h, name)
  {
    Lookup(h, name).value.value
  }

  /** The first match's position does not depend on keywords after it. */
  lemma {:induction false} FirstIndexAppend(h: Header, t: Header, name: string)
    ensures FirstIndex(h + t, name) == if FirstIndex(h, name) < |h| then FirstIndex(h, name) else |h| + FirstIndex(t, name)
  {
    if |h| > 0 && h[0].name != name {
      assert (h + t)[1..] == h[1..] + t;
      FirstIndexAppend(h[1..], t, name);
    } else if |h| == 0 {
      assert h + t == t;
    }
  }

  /** Keywords appended after a match never change what lookup finds. */
  lemma LookupFirstMatchWins(h: Header, t: Header, name: string)
    requires Present(h, name)
    ensures Lookup(h + t, name) == Lookup(h, name)
  {
    FirstIndexAppend(h, t, name);
  }

  /** Behind a header without a match, lookup finds what the rest holds. */
  lemma LookupSkipsNonMatching(h: Header, t: Header, name: string)
    requires !Present(h, name)
    ensures Lookup(h + t, name) == Lookup(t, name)
  {
    FirstIndexAppend(h, t, name);
  }

  /** The kind-tagged projection of a keyword to its Java payload: BOOLEAN,
      INTEGER and REAL are boxed, COMMENT and STRING give the string, DATE the
      date, and NONE gives null. Each payload carries the keyword's own
      value. */
  function Payload(v: Value): (o: Boxed)
    ensures o.Null? <==> v.NoValue?
    ensures o.BoxedBoolean? <==> v.BoolValue?
    ensures o.BoxedInteger? <==> v.IntValue?
    ensures o.BoxedDouble? <==> v.RealValue?
    ensures o.JavaString? <==> v.StringValue? || v.CommentValue?
    ensures o.JavaDate? <==> v.DateValue?
    ensures v.BoolValue? ==> o == BoxedBoolean(v.b)
    ensures v.IntValue? ==> o == BoxedInteger(v.i)
    ensures v.RealValue? ==> o == BoxedDouble(v.r)
    ensures v.StringValue? ==> o == JavaString(v.s)
    ensures v.CommentValue? ==> o == JavaString(v.text)
    ensures v.DateValue? ==> o == JavaDate(v.d)
  {
    match v
    case BoolValue(b) => BoxedBoolean(b)
    case CommentValue(text) => JavaString(text)
    case DateValue(d) => JavaDate(d)
    case IntValue(i) => BoxedInteger(i)
    case NoValue => Null
    case RealValue(r) => BoxedDouble(r)
    case StringValue(s) => JavaString(s)
  }
}

=== FILE: header_parser.dfy ===
/** The textual header parser: a newline-separated header (as embedded in an
    RTML document, one card per line and not padded) is split into lines,
    each line is padded to the 80-column card image, END cards are skipped,
    and every other card is decoded by the keyword parser and appended in
    order. The first card the keyword parser rejects aborts the parse.

    The card grammar itself belongs to the external FITS library; it enters
    the model as the parameter `parseCard`. */
module HeaderParser {
  import opened Wrappers
  import opened Header

  /** The fixed width of a FITS card image. */
  const CardWidth: nat := 80

  /** The prefix that marks the END card. */
  const EndPrefix: string := "END "

  // ---------------------------------------------------------------------
  // Splitting the header text into lines
  // ---------------------------------------------------------------------

  /** A token of the line splitter: non-empty, without a newline. */
  predicate IsToken(t: string) {
    |t| > 0 && forall i :: 0 <= i < |t| ==> t[i] != '\n'
  }

  /** Length of the leading run of characters that are not newlines. */
  function TokenLength(s: string): (k: nat)
    ensures k <= |s|
    ensures forall i :: 0 <= i < k ==> s[i] != '\n'
    ensures k < |s| ==> s[k] == '\n'
  {
    if |s| == 0 || s[0] == '\n' then 0 else 1 + TokenLength(s[1..])
  }

  /** The lines a StringTokenizer with delimiter "\n" yields: the maximal
      runs of non-newline characters, so empty lines produce no token. */
  function Tokens(s: string): (ts: seq<string>)
    ensures forall i :: 0 <= i < |ts| ==> IsToken(ts[i])
    decreases |s|
  {
    if |s| == 0 then []
    else if s[0] == '\n' then Tokens(s[1..])
    else
      var k := TokenLength(s);
      [s[..k]] + Tokens(s[k..])
  }

  /** Lines joined back into one text, one newline between each two. */
  function Join(ts: seq<string>): string {
    if |ts| == 0 then ""
    else if |ts| == 1 then ts[0]
    else ts[0] + "\n" + Join(ts[1..])
  }

  /** A newline separates the tokens before it from the tokens after it;
      in particular any run of consecutive newlines yields no token. */
  lemma {:induction false} TokensSplitAtNewline(a: string, b: string)
    ensures Tokens(a + "\n" + b) == Tokens(a) + Tokens(b)
    decreases |a|
  {
    var s := a + "\n" + b;
    if |a| == 0 {
      assert s[1..] == b;
    } else if a[0] == '\n' {
      assert s[1..] == a[1..] + "\n" + b;
      TokensSplitAtNewline(a[1..], b);
    } else {
      var k := TokenLength(a);
      TokenLengthBeforeNewline(a, b);
      assert s[..k] == a[..k];
      assert s[k..] == a[k..] + "\n" + b;
      TokensSplitAtNewline(a[k..], b);
    }
  }

  /** The first token of `a + "\n" + b` ends where the first token of `a`
      ends. */
  lemma TokenLengthBeforeNewline(a: string, b: string)
    ensures TokenLength(a + "\n" + b) == TokenLength(a)
  {
    var s := a + "\n" + b;
    var k := TokenLength(a);
    assert s[k] == '\n' by {
      if k < |a| {
        assert s[k] == a[k];
      }
    }
  }

  /** A single token splits into itself. */
  lemma TokensOfToken(t: string)
    requires IsToken(t)
    ensures Tokens(t) == [t]
  {
    assert TokenLength(t) == |t|;
    assert t[..|t|] == t;
    assert t[|t|..] == [];
  }

  /** Splitting undoes joining: lines without newlines that are not empty
      come back unchanged and in order. */
  lemma {:induction false} TokensJoinRoundTrip(ts: seq<string>)
    requires forall i :: 0 <= i < |ts| ==> IsToken(ts[i])
    ensures Tokens(Join(ts)) == ts
  {
    if |ts| == 1 {
      TokensOfToken(ts[0]);
    } else if |ts| > 1 {
      TokensSplitAtNewline(ts[0], Join(ts[1..]));
      TokensOfToken(ts[0]);
      TokensJoinRoundTrip(ts[1..]);
    }
  }

  // ---------------------------------------------------------------------
  // Padding a line to a card image
  // ---------------------------------------------------------------------

  function Spaces(n: nat): (s: string)
    ensures |s| == n && forall i :: 0 <= i < n ==> s[i] == ' '
  {
    seq(n, _ => ' ')
  }

  /** The card image of a line: the line right-padded with spaces to 80
      columns. A line of 80 or more characters is passed through untruncated. */
  function Padded(line: string): (card: string)
    ensures |card| >= CardWidth
    ensures |line| < CardWidth ==> |card| == CardWidth
    ensures |line| >= CardWidth ==> card == line
    ensures card[..|line|] == line
    ensures forall i :: |line| <= i < |card| ==> card[i] == ' '
  {
    if |line| < CardWidth then line + Spaces(CardWidth - |line|) else line
  }

  /** The padding loop: append one space at a time while the card is
      shorter than 80 columns. */
  method PadCard(line: string) returns (card: string)
    ensures card == Padded(line)
  {
    card := line;
    while |card| < CardWidth
      invariant |line| <= |card|
      invariant |line| < CardWidth ==> |card| <= CardWidth
      invariant |line| >= CardWidth ==> card == line
      invariant card == line + Spaces(|card| - |line|)
      decreases CardWidth - |card|
    {
      card := card + " ";
    }
    if |line| < CardWidth {
      assert |card| == CardWidth;
    }
  }

  /** A card that starts with "END " is the END card. */
  predicate IsEndCard(card: string) {
    |card| >= |EndPrefix| && card[..|EndPrefix|] == EndPrefix
  }

  /** Which input lines become END cards: a bare "END" line (padding
      supplies the space) and any line starting "END ". Nothing else. */
  lemma EndLineRecognised(line: string)
    ensures IsEndCard(Padded(line)) <==> line == "END" || (|line| >= 4 && line[..4] == EndPrefix)
  {
    var card := Padded(line);
    if |line| >= 4 {
      assert card[..4] == line[..4];
    } else if line == "END" {
      assert card[..3] == line;
      assert card[3] == ' ';
      assert card[..4] == EndPrefix;
    } else if |line| == 3 {
      assert card[..3] == line != EndPrefix[..3];
    } else {
      assert card[2] == ' ' != EndPrefix[2];
    }
  }

  // ---------------------------------------------------------------------
  // The cards handed to the keyword parser
  // ---------------------------------------------------------------------

  /** The card a line contributes: none for an END card, its padded image otherwise. */
  function CardOf(line: string): (cs: seq<string>)
    ensures |cs| <= 1
    ensures |cs| == 0 <==> IsEndCard(Padded(line))
    ensures |cs| == 1 ==> cs[0] == Padded(line)
  {
    var card := Padded(line);
    if IsEndCard(card) then [] else [card]
  }

  /** The padded non-END cards of the lines, in line order. */
  function Cards(lines: seq<string>): (cs: seq<string>)
    ensures |cs| <= |lines|
  {
    if |lines| == 0 then [] else CardOf(lines[0]) + Cards(lines[1..])
  }

  /** Every card handed to the keyword parser is at least 80 columns wide and
      is not an END card. */
  lemma {:induction false} CardsAreCardImages(lines: seq<string>)
    ensures forall i :: 0 <= i < |Cards(lines)| ==> |Cards(lines)[i]| >= CardWidth && !IsEndCard(Cards(lines)[i])
  {
    if |lines| > 0 {
      CardsAreCardImages(lines[1..]);
    }
  }

  lemma {:induction false} CardsAppend(a: seq<string>, b: seq<string>)
    ensures Cards(a + b) == Cards(a) + Cards(b)
  {
    if |a| == 0 {
      assert a + b == b;
    } else {
      assert (a + b)[1..] == a[1..] + b;
      CardsAppend(a[1..], b);
    }
  }

  /** A line between two newlines is a token of its own. */
  lemma TokensAroundLine(before: string, line: string, after: string)
    requires IsToken(line)
    ensures Tokens(before + "\n" + line + "\n" + after) == Tokens(before) + [line] + Tokens(after)
  {
    var rest := line + "\n" + after;
    calc {
      Tokens(before + "\n" + line + "\n" + after);
      { assert before + "\n" + line + "\n" + after == before + "\n" + rest; }
      Tokens(before + "\n" + rest);
      { TokensSplitAtNewline(before, rest); }
      Tokens(before) + Tokens(rest);
      { TokensSplitAtNewline(line, after); TokensOfToken(line); }
      Tokens(before) + ([line] + Tokens(after));
    }
  }

  /** An END line contributes no card, and the lines after it still do. */
  lemma CardsSkipEndLine(a: seq<string>, endLine: string, b: seq<string>)
    requires IsEndCard(Padded(endLine))
    ensures Cards(a + [endLine] + b) == Cards(a) + Cards(b)
  {
    var eb := [endLine] + b;
    assert Cards(eb) == Cards(b) by {
      assert eb[0] == endLine && eb[1..] == b;
      assert CardOf(endLine) == [];
    }
    assert a + [endLine] + b == a + eb;
    CardsAppend(a, eb);
  }

  /** An END line does not end the parse: the lines after it still give cards. */
  lemma EndLineDoesNotStop(before: string, endLine: string, after: string)
    requires IsToken(endLine) && IsEndCard(Padded(endLine))
    ensures Cards(Tokens(before + "\n" + endLine + "\n" + after)) == Cards(Tokens(before)) + Cards(Tokens(after))
  {
    TokensAroundLine(before, endLine, after);
    CardsSkipEndLine(Tokens(before), endLine, Tokens(after));
  }

  /** Position of the first card the keyword parser rejects, or the number
      of cards when it accepts them all. */
  function FirstReject(cards: seq<string>, parseCard: string -> Result<Keyword, string>): (n: nat)
    ensures n <= |cards|
    ensures forall i :: 0 <= i < n ==> parseCard(cards[i]).Success?
    ensures n < |cards| ==> parseCard(cards[n]).Failure?
  {
    if |cards| == 0 then 0
    else if parseCard(cards[0]).Failure? then 0
    else 1 + FirstReject(cards[1..], parseCard)
  }

  // ---------------------------------------------------------------------
  // The parser
  // ---------------------------------------------------------------------

  /** The exception `parse` raises: the text of the card that failed. */
  datatype ParseError = CardRejected(card: string)

  /** The parser object: the header it holds, null before the first parse. */
  datatype HeaderParser = HeaderParser(header: Option<Header>)

  /** A freshly constructed parser holds no header. */
  const NewParser: HeaderParser := HeaderParser(None)

  /** `getKeywords`: the header's keywords in card order. Before the first
      parse the header is null and the call throws, shown here as None. */
  function Keywords(p: HeaderParser): (ks: Option<Header>)
    ensures ks.None? <==> p.header.None?
  {
    p.header
  }

  /** `getKeywordCount`: the number of keywords `getKeywords` enumerates;
      it throws (None) exactly when `getKeywords` does. */
  function KeywordCount(p: HeaderParser): (n: Option<nat>)
    ensures n.Some? <==> Keywords(p).Some?
    ensures n.Some? ==> n.value == |Keywords(p).value|
  {
    if p.header.None? then None else Some(|p.header.value|)
  }

  /** Before the first parse both accessors throw. */
  lemma NewParserHoldsNothing()
    ensures Keywords(NewParser).None? && KeywordCount(NewParser).None?
  {
  }

  /** Where the parse loop stops: the keywords appended so far and, when a
      card was rejected, that card. */
  datatype Progress = Progress(keywords: Header, rejected: Option<string>)

  /** The parse loop over the lines, in order: pad each line, skip END
      cards, decode the others and append them, and stop at the first card
      the keyword parser rejects. At most one keyword comes from each
      line, and the card it reports is a padded card image, never END. */
  function ParseLines(lines: seq<string>, parseCard: string -> Result<Keyword, string>): (r: Progress)
    ensures |r.keywords| <= |lines|
    ensures r.rejected.Some? ==> |r.rejected.value| >= CardWidth && !IsEndCard(r.rejected.value)
    ensures r.rejected.Some? ==> parseCard(r.rejected.value).Failure?
  {
    if |lines| == 0 then Progress([], None)
    else
      var card := Padded(lines[0]);
      if IsEndCard(card) then ParseLines(lines[1..], parseCard)
      else match parseCard(card)
        case Failure(_) => Progress([], Some(card))
        case Success(k) =>
          var rest := ParseLines(lines[1..], parseCard);
          Progress([k] + rest.keywords, rest.rejected)
  }

  /** `r` is the outcome of a fail-fast run over `cards`: it holds the
      decoded cards before the first rejection, in order, and names the
      rejected card if there is one. */
  predicate FailFast(cards: seq<string>, r: Progress, parseCard: string -> Result<Keyword, string>) {
    var n := FirstReject(cards, parseCard);
    && |r.keywords| == n
    && (forall i :: 0 <= i < n ==> parseCard(cards[i]) == Success(r.keywords[i]))
    && (r.rejected.None? <==> n == |cards|)
    && (r.rejected.Some? ==> r.rejected.value == cards[n])
  }

  /** An accepted card in front of a fail-fast run extends it by its keyword. */
  lemma FailFastCons(card: string, tail: seq<string>, k: Keyword, rest: Progress,
                     parseCard: string -> Result<Keyword, string>)
    requires parseCard(card) == Success(k)
    requires FailFast(tail, rest, parseCard)
    ensures FailFast([card] + tail, Progress([k] + rest.keywords, rest.rejected), parseCard)
  {
    var cards := [card] + tail;
    var kws := [k] + rest.keywords;
    assert cards[1..] == tail;
    var n := FirstReject(tail, parseCard);
    assert FirstReject(cards, parseCard) == 1 + n;
    forall i | 0 <= i < 1 + n
      ensures parseCard(cards[i]) == Success(kws[i])
    {
      if i > 0 {
        assert cards[i] == tail[i - 1];
        assert kws[i] == rest.keywords[i - 1];
      }
    }
  }

  /** The parse loop decodes exactly the cards before the first rejection,
      in order, and reports that card. */
  lemma {:induction false} ParseLinesFailFast(lines: seq<string>, parseCard: string -> Result<Keyword, string>)
    ensures FailFast(Cards(lines), ParseLines(lines, parseCard), parseCard)
  {
    if |lines| > 0 {
      var card := Padded(lines[0]);
      var tail := Cards(lines[1..]);
      ParseLinesFailFast(lines[1..], parseCard);
      if IsEndCard(card) {
        assert Cards(lines) == tail;
      } else {
        assert Cards(lines) == [card] + tail;
        match parseCard(card)
        case Failure(_) =>
          assert FirstReject([card] + tail, parseCard) == 0;
        case Success(k) =>
          FailFastCons(card, tail, k, ParseLines(lines[1..], parseCard), parseCard);
      }
    }
  }

  /** The result of `parse`: the parser afterwards and whether it threw. */
  datatype ParseResult = ParseResult(parser: HeaderParser, outcome: Outcome<ParseError>)

  /** Parses a header text. The header is replaced by a fresh one before the
      first line, so nothing of `p` survives; on success it holds the decoded
      non-END cards in line order, and on failure the keywords decoded before
      the rejected card, which the error names. */
  function Parse(p: HeaderParser, text: string, parseCard: string -> Result<Keyword, string>): (r: ParseResult)
    ensures Keywords(r.parser).Some?
    ensures var ks := Keywords(r.parser).value;
      && |ks| == FirstReject(Cards(Tokens(text)), parseCard)
      && (forall i :: 0 <= i < |ks| ==> parseCard(Cards(Tokens(text))[i]) == Success(ks[i]))
    ensures r.outcome.Pass? <==> forall i :: 0 <= i < |Cards(Tokens(text))| ==> parseCard(Cards(Tokens(text))[i]).Success?
    ensures r.outcome.Pass? ==> KeywordCount(r.parser) == Some(|Cards(Tokens(text))|)
    ensures r.outcome.Fail? ==> r.outcome.error == CardRejected(Cards(Tokens(text))[|Keywords(r.parser).value|])
  {
    var progress := ParseLines(Tokens(text), parseCard);
    ParseLinesFailFast(Tokens(text), parseCard);
    ParseResult(HeaderParser(Some(progress.keywords)),
                if progress.rejected.None? then Pass else Fail(CardRejected(progress.rejected.value)))
  }

  /** Each parse starts from a fresh header: the result does not depend on
      the parser it was called on. */
  lemma ParseDiscardsPrevious(p: HeaderParser, q: HeaderParser, text: string,
                              parseCard: string -> Result<Keyword, string>)
    ensures Parse(p, text, parseCard) == Parse(q, text, parseCard)
  {
  }

  // ---------------------------------------------------------------------
  // Accessors
  // ---------------------------------------------------------------------

  /** A header has been parsed and holds a keyword of that name. */
  predicate Holds(p: HeaderParser, name: string) {
    p.header.Some? && Present(p.header.value, name)
  }

  /** `getKeywordValue`: the payload of the FIRST keyword with that name,
      projected by its kind. The source dereferences the lookup result
      without a null check, so the keyword must be present. */
  function KeywordValue(p: HeaderParser, name: string): (o: Boxed)
    requires Holds(p, name)
    ensures var ks := Keywords(p).value;
      exists i :: 0 <= i < |ks| && ks[i].name == name
                  && (forall j :: 0 <= j < i ==> ks[j].name != name)
                  && o == Payload(ks[i].value)
  {
    var h := p.header.value;
    var i := FirstIndex(h, name);
    assert Keywords(p).value == h && h[i].name == name;
    Payload(h[i].value)
  }

  /** The kind of the first keyword with that name. */
  function KindOf(p: HeaderParser, name: string): Value
    requires Holds(p, name)
  {
    ValueOf(p.header.value, name)
  }

  /** `getKeywordValueBoolean`: no absence guard, so the keyword must exist. */
  function KeywordValueBoolean(p: HeaderParser, name: string): (b: bool)
    requires Holds(p, name) && KindOf(p, name).BoolValue?
    ensures KeywordValue(p, name) == BoxedBoolean(b)
  {
    KindOf(p, name).b
  }

  /** `getKeywordValueDate`. */
  function KeywordValueDate(p: HeaderParser, name: string): (d: Date)
    requires Holds(p, name) && KindOf(p, name).DateValue?
    ensures KeywordValue(p, name) == JavaDate(d)
  {
    KindOf(p, name).d
  }

  /** `getKeywordValueInteger`. */
  function KeywordValueInteger(p: HeaderParser, name: string): (i: int)
    requires Holds(p, name) && KindOf(p, name).IntValue?
    ensures KeywordValue(p, name) == BoxedInteger(i)
  {
    KindOf(p, name).i
  }

  /** `getKeywordValueDouble`. */
  function KeywordValueDouble(p: HeaderParser, name: string): (d: real)
    requires Holds(p, name) && KindOf(p, name).RealValue?
    ensures KeywordValue(p, name) == BoxedDouble(d)
  {
    KindOf(p, name).r
  }

  /** `getKeywordValueString`: the text of a STRING or COMMENT keyword. */
  function KeywordValueString(p: HeaderParser, name: string): (s: string)
    requires Holds(p, name) && IsText(KindOf(p, name))
    ensures KeywordValue(p, name) == JavaString(s)
  {
    TextOf(KindOf(p, name))
  }
}

=== FILE: image.dfy ===
/** The current revision of the FITS image class: the image state loaded from
    the primary HDU, the min/max scan, the lenient display-coordinate lookup,
    the linear plate-scale transform between pixels and the sky, the field
    size, and the flipped grey-scale rendering. Sky positions are real
    arc-seconds. */
module Image {
  import opened Wrappers
  import opened JavaNumerics
  import opened Header
  import opened Pixels
  import opened DataUnits
  import Raster

  /** A position on the sky, right ascension and declination in arc-seconds. */
  datatype SkyPosition = SkyPosition(ra: real, dec: real)

  /** An integer pixel position. */
  datatype Point = Point(x: int, y: int)

  /** The image object's fields. `data` is the sample buffer, storage row 0
      first; `None` is a Java null. */
  datatype FitsImage = FitsImage(
    width: int,
    height: int,
    data: seq<real>,
    minPixel: real,
    maxPixel: real,
    fcRA: Option<real>,
    fcDec: Option<real>,
    xPlateScale: real,
    yPlateScale: real,
    objectName: Option<string>,
    dateObs: Option<Date>)

  /** A freshly constructed image: no samples, zero window, no field centre,
      zero plate scales, no object name or date. */
  const NewImage: FitsImage :=
    FitsImage(0, 0, [], 0.0, 0.0, None, None, 0.0, 0.0, None, None)

  /** Non-negative dimensions and exactly one sample per pixel. */
  predicate Consistent(img: FitsImage) {
    0 <= img.width && 0 <= img.height && |img.data| == img.width * img.height
  }

  // ---------------------------------------------------------------------
  // load(FitsFile)
  // ---------------------------------------------------------------------

  /** XPS and YPS, when present, are real cards (the real getter is applied
      to them unconditionally). */
  predicate ScalesReadable(h: Header) {
    && (Present(h, "XPS") ==> ValueOf(h, "XPS").RealValue?)
    && (Present(h, "YPS") ==> ValueOf(h, "YPS").RealValue?)
  }

  /** The text of a keyword when it is present and has text, else null. */
  function TextKeyword(h: Header, name: string): (s: Option<string>)
    ensures s.Some? <==> Present(h, name) && IsText(ValueOf(h, name))
    ensures s.Some? ==> s.value == TextOf(ValueOf(h, name))
  {
    if Present(h, name) && IsText(ValueOf(h, name)) then Some(TextOf(ValueOf(h, name))) else None
  }

  /** The optional keywords, each read only when present: FCRA and FCDEC are
      parsed only when the card yields text, XPS and YPS are read as reals,
      and OBJECT and DATE-OBS take the getter's result, which is null for a
      card of another kind. */
  function ReadOptional(img: FitsImage, h: Header, raArcsec: string -> real, decArcsec: string -> real): (r: FitsImage)
    requires ScalesReadable(h)
    ensures r.width == img.width && r.height == img.height && r.data == img.data
    ensures r.minPixel == img.minPixel && r.maxPixel == img.maxPixel
  {
    var ra := TextKeyword(h, "FCRA");
    var dec := TextKeyword(h, "FCDEC");
    img.(
      fcRA := if ra.Some? then Some(raArcsec(ra.value)) else img.fcRA,
      fcDec := if dec.Some? then Some(decArcsec(dec.value)) else img.fcDec,
      xPlateScale := if Present(h, "XPS") then ValueOf(h, "XPS").r else img.xPlateScale,
      yPlateScale := if Present(h, "YPS") then ValueOf(h, "YPS").r else img.yPlateScale,
      objectName := if Present(h, "OBJECT") then TextKeyword(h, "OBJECT") else img.objectName,
      dateObs :=
        if !Present(h, "DATE-OBS") then img.dateObs
        else if ValueOf(h, "DATE-OBS").DateValue? then Some(ValueOf(h, "DATE-OBS").d)
        else None)
  }

  datatype LoadResult = LoadResult(image: FitsImage, outcome: Outcome<LoadError>)

  /** `load(FitsFile)` on the primary HDU's header `h` and data unit `du`.
      Fields are assigned in the source's order and an exception leaves the
      assignments made before it: width from NAXIS1, height from NAXIS2, the
      optional keywords, then the type and axis checks; on success the
      dimensions are taken from the data axes and the samples are copied.
      The min/max window is left alone. */
  function Load(img: FitsImage, h: Header, du: DataUnit, raArcsec: string -> real, decArcsec: string -> real): (r: LoadResult)
    requires NaxisReadable(h) && ScalesReadable(h)
    ensures r.outcome.Pass? <==> Present(h, "NAXIS1") && Present(h, "NAXIS2") && du.unitType == ImageUnit && |du.axes| == 2
    ensures !Present(h, "NAXIS1") ==> r == LoadResult(img, Fail(MissingKeyword("NAXIS1")))
    ensures Present(h, "NAXIS1") && !Present(h, "NAXIS2") ==>
      r == LoadResult(img.(width := ValueOf(h, "NAXIS1").i), Fail(MissingKeyword("NAXIS2")))
    ensures Present(h, "NAXIS1") && Present(h, "NAXIS2") && r.outcome.Fail? ==>
      r.outcome == CheckStructure(du) && r.image.width == ValueOf(h, "NAXIS1").i && r.image.height == ValueOf(h, "NAXIS2").i
    ensures r.outcome.Pass? ==> r.image.width == du.axes[0] && r.image.height == du.axes[1] && r.image.data == du.values
    ensures r.outcome.Fail? ==> r.image.data == img.data
    ensures r.image.minPixel == img.minPixel && r.image.maxPixel == img.maxPixel
  {
    if !Present(h, "NAXIS1") then LoadResult(img, Fail(MissingKeyword("NAXIS1")))
    else
      var withWidth := img.(width := ValueOf(h, "NAXIS1").i);
      if !Present(h, "NAXIS2") then LoadResult(withWidth, Fail(MissingKeyword("NAXIS2")))
      else
        var read := ReadOptional(withWidth.(height := ValueOf(h, "NAXIS2").i), h, raArcsec, decArcsec);
        var check := CheckStructure(du);
        if check.Fail? then LoadResult(read, check)
        else LoadResult(read.(width := du.axes[0], height := du.axes[1], data := du.values), Pass)
  }

  /** Once NAXIS1 and NAXIS2 have been read, every optional keyword that is
      absent leaves its field as it was, and every present one sets it: FCRA
      and FCDEC to the parsed text (a card without text leaves the field),
      XPS and YPS to the real, OBJECT to its text or null, and DATE-OBS to
      its date or null. */
  lemma LoadReadsOptionalKeywords(img: FitsImage, h: Header, du: DataUnit, raArcsec: string -> real, decArcsec: string -> real)
    requires NaxisReadable(h) && ScalesReadable(h)
    requires Present(h, "NAXIS1") && Present(h, "NAXIS2")
    ensures var r := Load(img, h, du, raArcsec, decArcsec).image;
      && (!Present(h, "FCRA") ==> r.fcRA == img.fcRA)
      && (Present(h, "FCRA") && !IsText(ValueOf(h, "FCRA")) ==> r.fcRA == img.fcRA)
      && (Present(h, "FCRA") && IsText(ValueOf(h, "FCRA")) ==> r.fcRA == Some(raArcsec(TextOf(ValueOf(h, "FCRA")))))
      && (!Present(h, "FCDEC") ==> r.fcDec == img.fcDec)
      && (Present(h, "FCDEC") && !IsText(ValueOf(h, "FCDEC")) ==> r.fcDec == img.fcDec)
      && (Present(h, "FCDEC") && IsText(ValueOf(h, "FCDEC")) ==> r.fcDec == Some(decArcsec(TextOf(ValueOf(h, "FCDEC")))))
      && (!Present(h, "XPS") ==> r.xPlateScale == img.xPlateScale)
      && (Present(h, "XPS") ==> r.xPlateScale == ValueOf(h, "XPS").r)
      && (!Present(h, "YPS") ==> r.yPlateScale == img.yPlateScale)
      && (Present(h, "YPS") ==> r.yPlateScale == ValueOf(h, "YPS").r)
      && (!Present(h, "OBJECT") ==> r.objectName == img.objectName)
      && (Present(h, "OBJECT") ==> r.objectName == TextKeyword(h, "OBJECT"))
      && (Present(h, "OBJECT") ==> (r.objectName.Some? <==> IsText(ValueOf(h, "OBJECT"))))
      && (!Present(h, "DATE-OBS") ==> r.dateObs == img.dateObs)
      && (Present(h, "DATE-OBS") && ValueOf(h, "DATE-OBS").DateValue? ==> r.dateObs == Some(ValueOf(h, "DATE-OBS").d))
      && (Present(h, "DATE-OBS") ==> (r.dateObs.Some? <==> ValueOf(h, "DATE-OBS").DateValue?))
  {
    var base := img.(width := ValueOf(h, "NAXIS1").i, height := ValueOf(h, "NAXIS2").i);
    var read := ReadOptional(base, h, raArcsec, decArcsec);
    var r := Load(img, h, du, raArcsec, decArcsec).image;
    assert r.fcRA == read.fcRA && r.fcDec == read.fcDec;
    assert r.xPlateScale == read.xPlateScale && r.yPlateScale == read.yPlateScale;
    assert r.objectName == read.objectName && r.dateObs == read.dateObs;
  }

  /** On a freshly constructed image, absent optional keywords leave the
      null and 0.0 defaults. */
  lemma LoadFreshDefaults(h: Header, du: DataUnit, raArcsec: string -> real, decArcsec: string -> real)
    requires NaxisReadable(h) && ScalesReadable(h)
    requires !Present(h, "FCRA") && !Present(h, "FCDEC") && !Present(h, "XPS") && !Present(h, "YPS")
    requires !Present(h, "OBJECT") && !Present(h, "DATE-OBS")
    ensures var r := Load(NewImage, h, du, raArcsec, decArcsec).image;
      && r.fcRA.None? && r.fcDec.None? && r.xPlateScale == 0.0 && r.yPlateScale == 0.0
      && r.objectName.None? && r.dateObs.None?
  {
  }

  /** A successful load of a well-formed unit leaves one sample per pixel. */
  lemma LoadedImageIsConsistent(img: FitsImage, h: Header, du: DataUnit, raArcsec: string -> real, decArcsec: string -> real)
    requires NaxisReadable(h) && ScalesReadable(h) && WellFormed(du)
    requires Load(img, h, du, raArcsec, decArcsec).outcome.Pass?
    ensures Consistent(Load(img, h, du, raArcsec, decArcsec).image)
  {
  }

  // ---------------------------------------------------------------------
  // setMinMaxPixelValue
  // ---------------------------------------------------------------------

  /** Rescans the samples and stores the result as the display window;
      nothing else changes. */
  method SetMinMaxPixelValue(img: FitsImage) returns (r: FitsImage)
    ensures r == img.(minPixel := r.minPixel, maxPixel := r.maxPixel)
    ensures IsScanMin(r.minPixel, img.data) && IsScanMax(r.maxPixel, img.data)
  {
    var lo, hi := ScanMinMax(img.data);
    r := img.(minPixel := lo, maxPixel := hi);
  }

  // ---------------------------------------------------------------------
  // getPosition(int,int) and getPosition(RA,Dec)
  // ---------------------------------------------------------------------

  /** Pixel to sky: null outside the inclusive frame [0, width] x [0, height]
      or without a field centre; otherwise the centre offset by the pixel's
      distance from the integer-halved image centre times the plate scale. */
  function PixelToSky(img: FitsImage, x: int, y: int): (r: Option<SkyPosition>)
    ensures r.None? <==> x < 0 || y < 0 || x > img.width || y > img.height || img.fcRA.None? || img.fcDec.None?
    ensures r.Some? ==>
      && r.value.ra - img.fcRA.value == (Half(img.width) - x) as real * img.xPlateScale
      && r.value.dec - img.fcDec.value == (Half(img.height) - y) as real * img.yPlateScale
  {
    if x < 0 || y < 0 || x > img.width || y > img.height || img.fcRA.None? || img.fcDec.None? then None
    else
      Some(SkyPosition(
        img.fcRA.value + (Half(img.width) - x) as real * img.xPlateScale,
        img.fcDec.value + (Half(img.height) - y) as real * img.yPlateScale))
  }

  /** Sky to pixel: null when either input or either centre coordinate is
      null; otherwise the offset from the centre divided by the plate scale,
      added to the integer-halved image centre and truncated toward zero.
      No frame check is made, so the point may lie outside the image. */
  function SkyToPixel(img: FitsImage, ra: Option<real>, dec: Option<real>): (r: Option<Point>)
    requires ra.Some? && dec.Some? && img.fcRA.Some? && img.fcDec.Some? ==>
      img.xPlateScale != 0.0 && img.yPlateScale != 0.0
    ensures r.None? <==> ra.None? || dec.None? || img.fcRA.None? || img.fcDec.None?
    ensures r.Some? ==> r.value == Point(
      Trunc((img.fcRA.value - ra.value) / img.xPlateScale + Half(img.width) as real),
      Trunc((img.fcDec.value - dec.value) / img.yPlateScale + Half(img.height) as real))
    ensures r.Some? ==> TruncatesTowardZero((img.fcRA.value - ra.value) / img.xPlateScale + Half(img.width) as real, r.value.x)
    ensures r.Some? ==> TruncatesTowardZero((img.fcDec.value - dec.value) / img.yPlateScale + Half(img.height) as real, r.value.y)
  {
    if ra.None? || dec.None? || img.fcRA.None? || img.fcDec.None? then None
    else
      Some(Point(
        Trunc((img.fcRA.value - ra.value) / img.xPlateScale + Half(img.width) as real),
        Trunc((img.fcDec.value - dec.value) / img.yPlateScale + Half(img.height) as real)))
  }

  /** A position less than one step beyond column 0, on either side, maps
      to column 0: the cast truncates toward zero rather than flooring. */
  lemma SkyToPixelNearColumnZero(img: FitsImage, ra: real, dec: real)
    requires img.fcRA.Some? && img.fcDec.Some?
    requires img.xPlateScale != 0.0 && img.yPlateScale != 0.0
    requires -1.0 < (img.fcRA.value - ra) / img.xPlateScale + Half(img.width) as real < 1.0
    ensures SkyToPixel(img, Some(ra), Some(dec)).Some?
    ensures SkyToPixel(img, Some(ra), Some(dec)).value.x == 0
  {
  }

  /** Width 10, centre 0 and one arc-second per pixel: RA 5.5 lies half a
      pixel left of column 0 and maps to column 0, where flooring would give
      column -1. */
  lemma SkyToPixelHalfPixelLeftOfFrame()
    ensures var img := NewImage.(width := 10, height := 10, fcRA := Some(0.0), fcDec := Some(0.0),
                                 xPlateScale := 1.0, yPlateScale := 1.0);
      SkyToPixel(img, Some(5.5), Some(0.0)) == Some(Point(0, 5))
  {
  }

  /** Exact round trip: with non-zero plate scales, mapping a pixel of the
      inclusive frame to the sky and back gives the same pixel. */
  lemma SkyToPixelInvertsPixelToSky(img: FitsImage, x: int, y: int)
    requires 0 <= x <= img.width && 0 <= y <= img.height
    requires img.fcRA.Some? && img.fcDec.Some?
    requires img.xPlateScale != 0.0 && img.yPlateScale != 0.0
    ensures PixelToSky(img, x, y).Some?
    ensures var s := PixelToSky(img, x, y).value;
      SkyToPixel(img, Some(s.ra), Some(s.dec)) == Some(Point(x, y))
  {
    var s := PixelToSky(img, x, y).value;
    AxisRoundTrip(img.fcRA.value, img.xPlateScale, Half(img.width), x, s.ra);
    AxisRoundTrip(img.fcDec.value, img.yPlateScale, Half(img.height), y, s.dec);
  }

  /** One axis of the exact round trip: the sky coordinate of pixel `px`,
      mapped back, truncates to `px` itself. */
  lemma AxisRoundTrip(centre: real, scale: real, half: int, px: int, sky: real)
    requires scale != 0.0
    requires sky == centre + (half - px) as real * scale
    ensures Trunc((centre - sky) / scale + half as real) == px
  {
    assert centre - sky == (px - half) as real * scale;
    assert (centre - sky) / scale + half as real == px as real;
    TruncOfInteger(px);
  }

  /** The other direction is only approximate: when a sky position maps to
      a pixel of the frame, that pixel maps back to within one plate-scale
      step of the position on each axis, the error of the truncation. */
  lemma PixelToSkyNearlyInvertsSkyToPixel(img: FitsImage, ra: real, dec: real)
    requires img.fcRA.Some? && img.fcDec.Some?
    requires img.xPlateScale != 0.0 && img.yPlateScale != 0.0
    requires var p := SkyToPixel(img, Some(ra), Some(dec)).value;
      0 <= p.x <= img.width && 0 <= p.y <= img.height
    ensures var p := SkyToPixel(img, Some(ra), Some(dec)).value;
      && PixelToSky(img, p.x, p.y).Some?
      && Abs(PixelToSky(img, p.x, p.y).value.ra - ra) < Abs(img.xPlateScale)
      && Abs(PixelToSky(img, p.x, p.y).value.dec - dec) < Abs(img.yPlateScale)
  {
    RaNearlyInverted(img, ra, dec);
    DecNearlyInverted(img, ra, dec);
  }

  /** The RA axis of the approximate inverse. */
  lemma RaNearlyInverted(img: FitsImage, ra: real, dec: real)
    requires img.fcRA.Some? && img.fcDec.Some?
    requires img.xPlateScale != 0.0 && img.yPlateScale != 0.0
    requires var p := SkyToPixel(img, Some(ra), Some(dec)).value;
      0 <= p.x <= img.width && 0 <= p.y <= img.height
    ensures var p := SkyToPixel(img, Some(ra), Some(dec)).value;
      PixelToSky(img, p.x, p.y).Some? && Abs(PixelToSky(img, p.x, p.y).value.ra - ra) < Abs(img.xPlateScale)
  {
    var p := SkyToPixel(img, Some(ra), Some(dec)).value;
    var s := PixelToSky(img, p.x, p.y).value;
    TruncStepError(img.fcRA.value, ra, img.xPlateScale, Half(img.width), p.x, s.ra);
  }

  /** The Dec axis of the approximate inverse. */
  lemma DecNearlyInverted(img: FitsImage, ra: real, dec: real)
    requires img.fcRA.Some? && img.fcDec.Some?
    requires img.xPlateScale != 0.0 && img.yPlateScale != 0.0
    requires var p := SkyToPixel(img, Some(ra), Some(dec)).value;
      0 <= p.x <= img.width && 0 <= p.y <= img.height
    ensures var p := SkyToPixel(img, Some(ra), Some(dec)).value;
      PixelToSky(img, p.x, p.y).Some? && Abs(PixelToSky(img, p.x, p.y).value.dec - dec) < Abs(img.yPlateScale)
  {
    var p := SkyToPixel(img, Some(ra), Some(dec)).value;
    var s := PixelToSky(img, p.x, p.y).value;
    TruncStepError(img.fcDec.value, dec, img.yPlateScale, Half(img.height), p.y, s.dec);
  }

  /** One axis of the approximate inverse: if px truncates the pixel
      coordinate of `pos` and `back` is the sky coordinate of px, then the two
      sky coordinates differ by less than one step. */
  lemma TruncStepError(centre: real, pos: real, scale: real, half: int, px: int, back: real)
    requires scale != 0.0
    requires px == Trunc((centre - pos) / scale + half as real)
    requires back == centre + (half - px) as real * scale
    ensures Abs(back - pos) < Abs(scale)
  {
    var q := (centre - pos) / scale;
    var u := q + half as real;
    TruncError(u);
    var e := u - px as real;
    assert q * scale == centre - pos;
    assert back - pos == e * scale by {
      assert back - pos == (half - px) as real * scale + q * scale;
      assert e == (half - px) as real + q;
    }
    ScaledFraction(e, scale);
  }

  /** A fraction strictly between -1 and 1 shrinks any non-zero factor. */
  lemma ScaledFraction(e: real, c: real)
    requires -1.0 < e < 1.0 && c != 0.0
    ensures Abs(e * c) < Abs(c)
  {
    if c > 0.0 {
      if e >= 0.0 {
        assert 0.0 <= e * c < c;
      } else {
        assert 0.0 < (-e) * c < c;
        assert Abs(e * c) == (-e) * c;
      }
    } else {
      if e >= 0.0 {
        assert 0.0 <= e * (-c) < -c;
        assert Abs(e * c) == e * (-c);
      } else {
        assert 0.0 < (-e) * (-c) < -c;
        assert Abs(e * c) == (-e) * (-c);
      }
    }
  }

  // ---------------------------------------------------------------------
  // getFieldSizeX, getFieldSizeY, getFieldRadius
  // ---------------------------------------------------------------------

  /** getFieldSizeX: the frame's extent in right ascension, in arc-seconds;
      it vanishes exactly for an empty frame or a zero plate scale, and is
      non-negative when both are. */
  function FieldSizeX(img: FitsImage): (size: real)
    ensures size == 0.0 <==> img.width == 0 || img.xPlateScale == 0.0
    ensures img.width >= 0 && img.xPlateScale >= 0.0 ==> size >= 0.0
  {
    img.width as real * img.xPlateScale
  }

  /** getFieldSizeY: the frame's extent in declination, in arc-seconds. */
  function FieldSizeY(img: FitsImage): (size: real)
    ensures size == 0.0 <==> img.height == 0 || img.yPlateScale == 0.0
    ensures img.height >= 0 && img.yPlateScale >= 0.0 ==> size >= 0.0
  {
    img.height as real * img.yPlateScale
  }

  /** The square of the value getFieldRadius returns (the source takes the
      square root of this sum). */
  function FieldRadiusSquared(img: FitsImage): (r2: real)
    ensures r2 >= 0.0
  {
    FieldSizeX(img) * FieldSizeX(img) + FieldSizeY(img) * FieldSizeY(img)
  }

  /** The field sizes are the sky extent of the frame: the difference
      between the positions of its opposite corners (0, 0) and
      (width, height), on each axis. */
  lemma FieldSizeSpansFrame(img: FitsImage)
    requires 0 <= img.width && 0 <= img.height && img.fcRA.Some? && img.fcDec.Some?
    ensures PixelToSky(img, 0, 0).Some? && PixelToSky(img, img.width, img.height).Some?
    ensures FieldSizeX(img) == PixelToSky(img, 0, 0).value.ra - PixelToSky(img, img.width, img.height).value.ra
    ensures FieldSizeY(img) == PixelToSky(img, 0, 0).value.dec - PixelToSky(img, img.width, img.height).value.dec
  {
  }

  /** The squared sky distance between two positions, in the plane. */
  function DistanceSquared(a: SkyPosition, b: SkyPosition): (d2: real)
    ensures d2 >= 0.0
  {
    (a.ra - b.ra) * (a.ra - b.ra) + (a.dec - b.dec) * (a.dec - b.dec)
  }

  /** As written, the radius spans the whole diagonal: it is the distance
      from corner (0, 0) to the opposite corner (width, height). */
  lemma FieldRadiusIsCornerToCorner(img: FitsImage)
    requires 0 <= img.width && 0 <= img.height && img.fcRA.Some? && img.fcDec.Some?
    ensures PixelToSky(img, 0, 0).Some? && PixelToSky(img, img.width, img.height).Some?
    ensures FieldRadiusSquared(img) == DistanceSquared(PixelToSky(img, 0, 0).value, PixelToSky(img, img.width, img.height).value)
  {
    FieldSizeSpansFrame(img);
  }

  /** A 100 x 100 frame at one arc-second per pixel: the documented
      centre-to-corner radius is sqrt(5000), about 70.7, but the value
      returned is sqrt(20000), about 141.4. */
  lemma FieldRadiusIsTwiceCentreToCorner()
    ensures var img := NewImage.(width := 100, height := 100, fcRA := Some(0.0), fcDec := Some(0.0),
                                 xPlateScale := 1.0, yPlateScale := 1.0);
      && PixelToSky(img, 50, 50) == Some(SkyPosition(0.0, 0.0))
      && PixelToSky(img, 0, 0) == Some(SkyPosition(50.0, 50.0))
      && DistanceSquared(PixelToSky(img, 50, 50).value, PixelToSky(img, 0, 0).value) == 5000.0
      && FieldRadiusSquared(img) == 20000.0
  {
  }

  /** The radius the documentation promises, squared: half the diagonal. */
  function CentreToCornerRadiusSquared(img: FitsImage): (r2: real)
    ensures r2 >= 0.0
  {
    FieldRadiusSquared(img) / 4.0
  }

  /** For even dimensions the integer-halved centre pixel is the true centre,
      it maps to the field centre, and the corrected radius is exactly its
      distance to corner (0, 0). */
  lemma CentreToCornerRadiusIsCentreToCorner(img: FitsImage)
    requires 0 <= img.width && 0 <= img.height && img.width % 2 == 0 && img.height % 2 == 0
    requires img.fcRA.Some? && img.fcDec.Some?
    ensures PixelToSky(img, Half(img.width), Half(img.height)) == Some(SkyPosition(img.fcRA.value, img.fcDec.value))
    ensures PixelToSky(img, 0, 0).Some?
    ensures CentreToCornerRadiusSquared(img) == DistanceSquared(SkyPosition(img.fcRA.value, img.fcDec.value), PixelToSky(img, 0, 0).value)
  {
    var hw, hh := Half(img.width), Half(img.height);
    assert img.width as real == 2.0 * hw as real;
    assert img.height as real == 2.0 * hh as real;
    var dx := hw as real * img.xPlateScale;
    var dy := hh as real * img.yPlateScale;
    assert FieldSizeX(img) == 2.0 * dx;
    assert FieldSizeY(img) == 2.0 * dy;
    assert FieldRadiusSquared(img) == 4.0 * (dx * dx + dy * dy);
  }

  // ---------------------------------------------------------------------
  // getValue
  // ---------------------------------------------------------------------

  /** The buffer covers every index of the width x height frame. */
  predicate Covered(img: FitsImage) {
    img.width * img.height <= |img.data|
  }

  /** getValue as written: display row y is storage row height - 1 - y, and
      only the flat index is range-checked, so 0.0 comes back exactly when
      that index falls outside [0, width * height). */
  function GetValue(img: FitsImage, x: int, y: int): (v: real)
    requires Covered(img)
    ensures var i := (img.height - (y + 1)) * img.width + x;
      && (0 <= i < img.width * img.height ==> v == img.data[i])
      && (i < 0 || img.width * img.height <= i ==> v == 0.0)
  {
    var i := (img.height - (y + 1)) * img.width + x;
    if i < 0 || i >= img.width * img.height then 0.0 else img.data[i]
  }

  /** Because only the flat index is checked, a column past the right edge
      wraps into the display row above (the next storage row). */
  lemma GetValueWraps(img: FitsImage, x: int, y: int)
    requires Covered(img)
    ensures GetValue(img, x, y) == GetValue(img, x - img.width, y - 1)
  {
    assert (img.height - (y - 1 + 1)) * img.width + (x - img.width) == (img.height - (y + 1)) * img.width + x;
  }

  /** On a 2 x 2 image, (2, 1) lies outside the frame, yet getValue returns
      the sample shown at display (0, 0) instead of 0.0. */
  lemma GetValueOutOfFrameCounterexample()
    ensures var img := NewImage.(width := 2, height := 2, data := [1.0, 2.0, 3.0, 4.0]);
      GetValue(img, 2, 1) == 3.0 == GetValue(img, 0, 0)
  {
  }

  /** getValue as documented: the sample under display (x, y), and 0.0 for
      any x or y outside the frame. Inside the frame it agrees with the
      source. */
  function GetValueInFrame(img: FitsImage, x: int, y: int): (v: real)
    requires Covered(img)
    ensures !(0 <= x < img.width && 0 <= y < img.height) ==> v == 0.0
    ensures 0 <= x < img.width && 0 <= y < img.height ==>
      0 <= (img.height - 1 - y) * img.width + x < |img.data| &&
      v == img.data[(img.height - 1 - y) * img.width + x] == GetValue(img, x, y)
  {
    if 0 <= x < img.width && 0 <= y < img.height then
      Raster.CellInRange(x, img.height - 1 - y, img.width, img.height);
      img.data[(img.height - 1 - y) * img.width + x]
    else 0.0
  }

  // ---------------------------------------------------------------------
  // createImageSource
  // ---------------------------------------------------------------------

  /** The render loops index within the buffer; a negative dimension would
      make the pixel array's size invalid. */
  predicate Renderable(img: FitsImage) {
    0 <= img.width && 0 <= img.height && Covered(img)
  }

  /** An opaque grey 0xAARRGGBB word: alpha 255, and red, green and blue all
      equal to the intensity. */
  function OpaqueGrey(v: int): (word: bv32)
    requires 0 <= v <= 255
    ensures Alpha(word) == 0xFF && Red(word) == Lane(v) && Green(word) == Lane(v) && Blue(word) == Lane(v)
  {
    Argb(0xFF, Lane(v), Lane(v), Lane(v))
  }

  /** createImageSource(minValue, maxValue): width * height opaque grey
      words, the rows flipped so that display row 0 is the last storage
      row. */
  function Render(img: FitsImage, minValue: real, maxValue: real): (pixels: seq<bv32>)
    requires Renderable(img)
    ensures |pixels| == img.width * img.height
    ensures forall q :: 0 <= q < |pixels| ==>
      Alpha(pixels[q]) == 0xFF && Red(pixels[q]) == Blue(pixels[q]) && Green(pixels[q]) == Blue(pixels[q])
  {
    seq(img.width * img.height, q requires 0 <= q < img.width * img.height =>
      OpaqueGrey(Intensity(img.data[Raster.FlipIndex(q, img.width, img.height)], minValue, maxValue)))
  }

  /** The source's loop body: the sample at storage (x, y) is windowed and
      written to output index (height - 1 - y) * width + x. */
  lemma RenderWritesFlippedCell(img: FitsImage, minValue: real, maxValue: real, x: int, y: int)
    requires Renderable(img)
    requires 0 <= x < img.width && 0 <= y < img.height
    ensures 0 <= y * img.width + x < |img.data|
    ensures 0 <= (img.height - 1 - y) * img.width + x < img.width * img.height
    ensures Render(img, minValue, maxValue)[(img.height - 1 - y) * img.width + x]
         == OpaqueGrey(Intensity(img.data[y * img.width + x], minValue, maxValue))
  {
    Raster.CellInRange(x, y, img.width, img.height);
    Raster.FlipIndexOfCell(x, img.height - 1 - y, img.width, img.height);
  }

  /** The rendering agrees with the lookup: the pixel at display (x, y) shows
      the sample getValue(x, y) returns. */
  lemma RenderShowsGetValue(img: FitsImage, minValue: real, maxValue: real, x: int, y: int)
    requires Renderable(img)
    requires 0 <= x < img.width && 0 <= y < img.height
    ensures 0 <= y * img.width + x < img.width * img.height
    ensures Render(img, minValue, maxValue)[y * img.width + x]
         == OpaqueGrey(Intensity(GetValueInFrame(img, x, y), minValue, maxValue))
    ensures GetValueInFrame(img, x, y) == GetValue(img, x, y)
  {
    Raster.CellInRange(x, y, img.width, img.height);
    Raster.FlipIndexOfCell(x, y, img.width, img.height);
  }

  /** createImageSource(): the window is the stored min/max. Every pixel is
      an opaque grey whose level lies between the intensities of the window
      ends, 0 and 255. */
  function DefaultRender(img: FitsImage): (pixels: seq<bv32>)
    requires Renderable(img)
    ensures |pixels| == img.width * img.height
    ensures forall q :: 0 <= q < |pixels| ==>
      exists v :: 0 <= v <= 255 && pixels[q] == OpaqueGrey(v)
  {
    Render(img, img.minPixel, img.maxPixel)
  }

  /** createImageSource() writes each cell where the two-argument form does,
      windowed by the stored min/max. */
  lemma DefaultRenderCell(img: FitsImage, x: int, y: int)
    requires Renderable(img)
    requires 0 <= x < img.width && 0 <= y < img.height
    ensures 0 <= y * img.width + x < |img.data|
    ensures 0 <= (img.height - 1 - y) * img.width + x < img.width * img.height
    ensures DefaultRender(img)[(img.height - 1 - y) * img.width + x]
         == OpaqueGrey(Intensity(img.data[y * img.width + x], img.minPixel, img.maxPixel))
  {
    RenderWritesFlippedCell(img, img.minPixel, img.maxPixel, x, y);
  }
}

=== FILE: java_numerics.dfy ===
/** The few pieces of Java integer semantics the model needs, written out
    explicitly because Dafny's integers are unbounded and its division is
    Euclidean. */
module JavaNumerics {

  /** Java's `(int)` cast of a double: truncation toward zero. */
  function Trunc(r: real): (n: int)
    ensures r >= 0.0 ==> 0 <= n && n as real <= r < n as real + 1.0
    ensures r < 0.0 ==> n <= 0 && n as real - 1.0 < r <= n as real
  {
    if r >= 0.0 then r.Floor else -((-r).Floor)
  }

  /** Java's `n / 2` on an int: the quotient truncated toward zero. */
  function Half(n: int): (h: int)
    ensures n >= 0 ==> 0 <= h && 2 * h <= n <= 2 * h + 1
    ensures n < 0 ==> h <= 0 && 2 * h - 1 <= n <= 2 * h
  {
    if n >= 0 then n / 2 else -((-n) / 2)
  }

  /** `n` is `u` truncated toward zero: the largest integer not above a
      non-negative `u`, the smallest not below a negative one. */
  predicate TruncatesTowardZero(u: real, n: int) {
    if u >= 0.0 then n as real <= u < n as real + 1.0 else n as real - 1.0 < u <= n as real
  }

  /** Trunc is the one integer that truncates its argument toward zero. */
  lemma TruncIsTowardZero(u: real, n: int)
    ensures TruncatesTowardZero(u, n) <==> n == Trunc(u)
  {
  }

  /** Whether a Java `int` holding the bit pattern `w` is negative: its sign bit is set. */
  predicate IsNegativeInt(w: bv32) {
    w & 0x8000_0000 != 0
  }

  /** A Java cast of an integer-valued real is exact. */
  lemma TruncOfInteger(n: int)
    ensures Trunc(n as real) == n
  {
  }

  /** Truncation loses less than one unit. */
  lemma TruncError(r: real)
    ensures -1.0 < r - Trunc(r) as real < 1.0
  {
  }

  function Abs(r: real): (a: real)
    ensures a >= 0.0 && (a == r || a == -r)
  {
    if r >= 0.0 then r else -r
  }
}

=== FILE: legacy_image.dfy ===
/** The earlier revision of the FITS image class: the same min/max scan and
    windowing as the current revision, but the samples are rendered in
    storage order, without the vertical flip, and packed as
    `(v << 24) | (v << 16) | v`. */
module LegacyImage {
  import opened Wrappers
  import opened JavaNumerics
  import opened Header
  import opened Pixels
  import opened DataUnits
  import Image
  import Raster

  /** The earlier revision keeps only the dimensions, the samples and the
      display window. */
  datatype LegacyFitsImage = LegacyFitsImage(width: int, height: int, data: seq<real>, minPixel: real, maxPixel: real)

  // ---------------------------------------------------------------------
  // load(FitsFile)
  // ---------------------------------------------------------------------

  datatype LegacyLoadResult = LegacyLoadResult(image: LegacyFitsImage, outcome: Outcome<LoadError>)

  /** `load(FitsFile)`: width from NAXIS1, height from NAXIS2, then the type
      and axis checks; on success the dimensions come from the data axes and
      the samples are copied. An exception keeps the assignments made
      before it. */
  function Load(img: LegacyFitsImage, h: Header, du: DataUnit): (r: LegacyLoadResult)
    requires NaxisReadable(h)
    ensures r.outcome.Pass? <==> Present(h, "NAXIS1") && Present(h, "NAXIS2") && du.unitType == ImageUnit && |du.axes| == 2
    ensures !Present(h, "NAXIS1") ==> r == LegacyLoadResult(img, Fail(MissingKeyword("NAXIS1")))
    ensures Present(h, "NAXIS1") && !Present(h, "NAXIS2") ==>
      r == LegacyLoadResult(img.(width := ValueOf(h, "NAXIS1").i), Fail(MissingKeyword("NAXIS2")))
    ensures Present(h, "NAXIS1") && Present(h, "NAXIS2") && r.outcome.Fail? ==>
      r == LegacyLoadResult(img.(width := ValueOf(h, "NAXIS1").i, height := ValueOf(h, "NAXIS2").i), CheckStructure(du))
    ensures r.outcome.Pass? ==> r.image == img.(width := du.axes[0], height := du.axes[1], data := du.values)
  {
    if !Present(h, "NAXIS1") then LegacyLoadResult(img, Fail(MissingKeyword("NAXIS1")))
    else
      var withWidth := img.(width := ValueOf(h, "NAXIS1").i);
      if !Present(h, "NAXIS2") then LegacyLoadResult(withWidth, Fail(MissingKeyword("NAXIS2")))
      else
        var read := withWidth.(height := ValueOf(h, "NAXIS2").i);
        var check := CheckStructure(du);
        if check.Fail? then LegacyLoadResult(read, check)
        else LegacyLoadResult(read.(width := du.axes[0], height := du.axes[1], data := du.values), Pass)
  }

  /** Both revisions accept and reject the same HDUs with the same error,
      and leave the same dimensions and samples behind. */
  lemma LoadAgreesWithCurrent(img: LegacyFitsImage, cur: Image.FitsImage, h: Header, du: DataUnit,
                              raArcsec: string -> real, decArcsec: string -> real)
    requires NaxisReadable(h) && Image.ScalesReadable(h)
    requires cur.width == img.width && cur.height == img.height && cur.data == img.data
    ensures var r := Load(img, h, du);
      var c := Image.Load(cur, h, du, raArcsec, decArcsec);
      && r.outcome == c.outcome
      && r.image.width == c.image.width && r.image.height == c.image.height && r.image.data == c.image.data
  {
  }

  // ---------------------------------------------------------------------
  // setMinMaxPixelValue
  // ---------------------------------------------------------------------

  /** Rescans the samples from the same seeds as the current revision. */
  method SetMinMaxPixelValue(img: LegacyFitsImage) returns (r: LegacyFitsImage)
    ensures r == img.(minPixel := r.minPixel, maxPixel := r.maxPixel)
    ensures IsScanMin(r.minPixel, img.data) && IsScanMax(r.maxPixel, img.data)
  {
    var lo, hi := ScanMinMax(img.data);
    r := img.(minPixel := lo, maxPixel := hi);
  }

  // ---------------------------------------------------------------------
  // createImageSource
  // ---------------------------------------------------------------------

  /** The packing as written: the intensity lands in the alpha, red and blue
      lanes, green stays 0, and an intensity of 128 or more sets the sign
      bit of the Java int. */
  function LegacyWord(v: int): (word: bv32)
    requires 0 <= v <= 255
    ensures Alpha(word) == Lane(v) && Red(word) == Lane(v) && Green(word) == 0 && Blue(word) == Lane(v)
    ensures IsNegativeInt(word) <==> v >= 128
  {
    (Lane(v) << 24) | (Lane(v) << 16) | Lane(v)
  }

  /** What the packing does to the window ends: black is fully transparent
      and white is opaque magenta, where an opaque grey was meant. */
  lemma LegacyWordIsNotGrey()
    ensures Alpha(LegacyWord(0)) == 0 && LegacyWord(0) != Image.OpaqueGrey(0)
    ensures LegacyWord(255) == 0xFFFF_00FF && Image.OpaqueGrey(255) == 0xFFFF_FFFF
  {
    assert Alpha(Image.OpaqueGrey(0)) == 0xFF;
    ArgbOfLanes(LegacyWord(255));
    ArgbOfLanes(Image.OpaqueGrey(255));
  }

  /** The render loop reads index i for i < width * height. */
  predicate Renderable(img: LegacyFitsImage) {
    0 <= img.width && 0 <= img.height && img.width * img.height <= |img.data|
  }

  /** createImageSource(minValue, maxValue): width * height words in storage
      order, each with green 0 and equal alpha, red and blue lanes. */
  function Render(img: LegacyFitsImage, minValue: real, maxValue: real): (pixels: seq<bv32>)
    requires Renderable(img)
    ensures |pixels| == img.width * img.height
    ensures forall i :: 0 <= i < |pixels| ==>
      Green(pixels[i]) == 0 && Alpha(pixels[i]) == Blue(pixels[i]) && Red(pixels[i]) == Blue(pixels[i])
  {
    seq(img.width * img.height, i requires 0 <= i < img.width * img.height =>
      LegacyWord(Intensity(img.data[i], minValue, maxValue)))
  }

  /** No flip: output word i depends on sample i alone. Two images of the
      same dimensions that agree on sample i agree on word i. */
  lemma RenderIsPointwise(img: LegacyFitsImage, other: LegacyFitsImage, minValue: real, maxValue: real, i: int)
    requires Renderable(img) && Renderable(other)
    requires other.width == img.width && other.height == img.height
    requires 0 <= i < img.width * img.height && other.data[i] == img.data[i]
    ensures Render(other, minValue, maxValue)[i] == Render(img, minValue, maxValue)[i]
  {
  }

  /** The earlier revision's output is the current revision's flipped
      vertically: on the blue lane, which both packings fill with the
      intensity, storage cell (x, y) appears at output row y here and at
      output row height - 1 - y in the current revision. */
  lemma RenderIsCurrentUnflipped(img: LegacyFitsImage, cur: Image.FitsImage, minValue: real, maxValue: real, x: int, y: int)
    requires Renderable(img) && Image.Renderable(cur)
    requires cur.width == img.width && cur.height == img.height && cur.data == img.data
    requires 0 <= x < img.width && 0 <= y < img.height
    ensures 0 <= y * img.width + x < img.width * img.height
    ensures 0 <= (img.height - 1 - y) * img.width + x < img.width * img.height
    ensures Blue(Render(img, minValue, maxValue)[y * img.width + x])
         == Blue(Image.Render(cur, minValue, maxValue)[(img.height - 1 - y) * img.width + x])
  {
    Raster.CellInRange(x, y, img.width, img.height);
    Image.RenderWritesFlippedCell(cur, minValue, maxValue, x, y);
  }

  /** createImageSource(): the window is the stored min/max. */
  function DefaultRender(img: LegacyFitsImage): (pixels: seq<bv32>)
    requires Renderable(img)
    ensures |pixels| == img.width * img.height
    ensures forall i :: 0 <= i < |pixels| ==> Blue(pixels[i]) == Lane(Intensity(img.data[i], img.minPixel, img.maxPixel))
  {
    Render(img, img.minPixel, img.maxPixel)
  }
}

=== FILE: pixels.dfy ===
/** Pixel post-processing shared by both revisions of the image class: the
    min/max scan with its fixed seeds, the grey-scale windowing of one sample
    to an 8-bit intensity, and the byte lanes of a packed 32-bit pixel. */
module Pixels {
  import opened JavaNumerics

  /** The scan starts with min = 65535 and max = 0. */
  const MinSeed: real := 65535.0
  const MaxSeed: real := 0.0

  /** `lo` is the smaller of 65535 and every sample. */
  ghost predicate IsScanMin(lo: real, data: seq<real>) {
    && lo <= MinSeed
    && (forall i :: 0 <= i < |data| ==> lo <= data[i])
    && (lo == MinSeed || exists i :: 0 <= i < |data| && data[i] == lo)
  }

  /** `hi` is the larger of 0 and every sample. */
  ghost predicate IsScanMax(hi: real, data: seq<real>) {
    && MaxSeed <= hi
    && (forall i :: 0 <= i < |data| ==> data[i] <= hi)
    && (hi == MaxSeed || exists i :: 0 <= i < |data| && data[i] == hi)
  }

  /** `setMinMaxPixelValue`: one pass over the samples from the fixed seeds,
      lowering the minimum and raising the maximum. */
  method ScanMinMax(data: seq<real>) returns (lo: real, hi: real)
    ensures IsScanMin(lo, data)
    ensures IsScanMax(hi, data)
  {
    lo := MinSeed;
    hi := MaxSeed;
    var i := 0;
    while i < |data|
      invariant 0 <= i <= |data|
      invariant IsScanMin(lo, data[..i])
      invariant IsScanMax(hi, data[..i])
    {
      if data[i] < lo {
        lo := data[i];
      }
      if data[i] > hi {
        hi := data[i];
      }
      assert data[..i + 1][i] == data[i];
      assert forall k :: 0 <= k < i ==> data[..i + 1][k] == data[..i][k];
      i := i + 1;
    }
    assert data[..i] == data;
  }

  /** The scan result is unique: the two predicates pin one value each. */
  lemma ScanResultUnique(lo: real, lo': real, hi: real, hi': real, data: seq<real>)
    requires IsScanMin(lo, data) && IsScanMin(lo', data)
    requires IsScanMax(hi, data) && IsScanMax(hi', data)
    ensures lo == lo' && hi == hi'
  {
  }

  /** A non-empty matrix of one value v in [0, 65535] scans to min = max = v. */
  lemma ScanOfConstant(data: seq<real>, v: real, lo: real, hi: real)
    requires |data| > 0 && forall i :: 0 <= i < |data| ==> data[i] == v
    requires 0.0 <= v <= MinSeed
    requires IsScanMin(lo, data) && IsScanMax(hi, data)
    ensures lo == v && hi == v
  {
    assert lo <= data[0] && data[0] <= hi;
  }

  /** An empty matrix keeps the seeds, so min > max afterwards. */
  lemma ScanOfEmpty(lo: real, hi: real)
    requires IsScanMin(lo, []) && IsScanMax(hi, [])
    ensures lo == MinSeed && hi == MaxSeed && lo > hi
  {
  }

  /** Grey-scale windowing of one sample: 0 below `minValue`, 255 above
      `maxValue`, and in between the sample rescaled linearly to 0..255 and
      truncated by the int cast. When `minValue == maxValue` the middle
      branch is reached only by a sample equal to both; the source then
      multiplies 0 by an infinite scale, and the cast of the resulting NaN
      is 0. */
  function Intensity(s: real, minValue: real, maxValue: real): (v: int)
    ensures 0 <= v <= 255
    ensures s < minValue ==> v == 0
    ensures minValue <= s && maxValue < s ==> v == 255
    ensures s == minValue == maxValue ==> v == 0
  {
    if s < minValue then 0
    else if s > maxValue then 255
    else if minValue == maxValue then 0
    else
      var scale := 255.0 / (maxValue - minValue);
      assert (s - minValue) * scale <= (maxValue - minValue) * scale == 255.0;
      Trunc((s - minValue) * scale)
  }

  /** The window ends map to black and white. */
  lemma IntensityEndpoints(minValue: real, maxValue: real)
    requires minValue < maxValue
    ensures Intensity(minValue, minValue, maxValue) == 0
    ensures Intensity(maxValue, minValue, maxValue) == 255
  {
    var scale := 255.0 / (maxValue - minValue);
    assert (maxValue - minValue) * scale == 255.0;
    TruncOfInteger(255);
  }

  /** Windowing never reverses the order of two samples. */
  lemma IntensityMonotone(s: real, t: real, minValue: real, maxValue: real)
    requires s <= t
    ensures Intensity(s, minValue, maxValue) <= Intensity(t, minValue, maxValue)
  {
    var v, w := Intensity(s, minValue, maxValue), Intensity(t, minValue, maxValue);
    if s < minValue {
      assert v == 0;
    } else if t > maxValue {
      assert w == 255;
    } else if minValue < maxValue {
      var scale := 255.0 / (maxValue - minValue);
      ScalePositive(maxValue - minValue);
      ScaleMonotone(s - minValue, t - minValue, scale);
      TruncMonotone((s - minValue) * scale, (t - minValue) * scale);
      IntensityInsideWindow(s, minValue, maxValue);
      IntensityInsideWindow(t, minValue, maxValue);
    } else {
      assert v == 0 && w == 0;
    }
  }

  lemma ScalePositive(d: real)
    requires d > 0.0
    ensures 255.0 / d > 0.0
  {
  }

  lemma ScaleMonotone(a: real, b: real, c: real)
    requires 0.0 <= a <= b && c > 0.0
    ensures 0.0 <= a * c <= b * c
  {
    assert b * c - a * c == (b - a) * c;
  }

  lemma TruncMonotone(a: real, b: real)
    requires 0.0 <= a <= b
    ensures Trunc(a) <= Trunc(b)
  {
  }

  /** Every sample lies inside the window [lo, hi]. */
  predicate WithinWindow(data: seq<real>, lo: real, hi: real) {
    forall i :: 0 <= i < |data| ==> lo <= data[i] <= hi
  }

  /** The scanned extremes form a window that holds every sample. */
  lemma ScanWindowHoldsSamples(data: seq<real>, lo: real, hi: real)
    requires IsScanMin(lo, data) && IsScanMax(hi, data)
    ensures WithinWindow(data, lo, hi)
  {
  }

  /** A sample inside a window min < max is not clipped: it is stretched
      linearly. */
  lemma IntensityInsideWindow(s: real, minValue: real, maxValue: real)
    requires minValue <= s <= maxValue && minValue < maxValue
    ensures Intensity(s, minValue, maxValue) == Trunc((s - minValue) * (255.0 / (maxValue - minValue)))
  {
  }

  // ---------------------------------------------------------------------
  // Byte lanes of a packed 0xAARRGGBB pixel
  // ---------------------------------------------------------------------

  function Alpha(w: bv32): bv32 {
    (w >> 24) & 0xFF
  }

  function Red(w: bv32): bv32 {
    (w >> 16) & 0xFF
  }

  function Green(w: bv32): bv32 {
    (w >> 8) & 0xFF
  }

  function Blue(w: bv32): bv32 {
    w & 0xFF
  }

  /** An intensity as an 8-bit lane value; the top bit of the lane is set
      exactly for intensities of 128 and above. */
  function Lane(v: int): (l: bv32)
    requires 0 <= v <= 255
    ensures l <= 0xFF
    ensures l >= 0x80 <==> v >= 128
    ensures l == 0 <==> v == 0
    ensures l == 0xFF <==> v == 255
  {
    v as bv32
  }

  /** The word `(a << 24) | (r << 16) | (g << 8) | b`: each byte lands in
      its own lane. */
  function Argb(a: bv32, r: bv32, g: bv32, b: bv32): (word: bv32)
    requires a <= 0xFF && r <= 0xFF && g <= 0xFF && b <= 0xFF
    ensures Alpha(word) == a && Red(word) == r && Green(word) == g && Blue(word) == b
  {
    (a << 24) | (r << 16) | (g << 8) | b
  }

  /** Every word is the packing of its own four lanes, so packing and lane
      extraction are inverse to each other. */
  lemma ArgbOfLanes(w: bv32)
    ensures Argb(Alpha(w), Red(w), Green(w), Blue(w)) == w
  {
  }
}

=== FILE: raster.dfy ===
/** Row-major index arithmetic of a width x height raster, and the vertical
    flip that maps storage row y to display row height - 1 - y. */
module Raster {

  /** Multiplying by a non-negative factor keeps the order. */
  lemma MulMonotone(a: int, b: int, c: int)
    requires a <= b && 0 <= c
    ensures a * c <= b * c
  {
    assert b * c - a * c == (b - a) * c;
  }

  lemma MulSucc(y: int, w: int)
    ensures (y + 1) * w == y * w + w
  {
  }

  /** Column and row are determined by the flat index. */
  lemma CellUnique(x: int, y: int, x': int, y': int, w: int)
    requires 0 <= x < w && 0 <= x' < w
    requires y * w + x == y' * w + x'
    ensures x == x' && y == y'
  {
    if y < y' {
      MulMonotone(y + 1, y', w);
      MulSucc(y, w);
    } else if y' < y {
      MulMonotone(y' + 1, y, w);
      MulSucc(y', w);
    }
  }

  lemma DivModOfCell(x: int, y: int, w: int)
    requires 0 <= x < w
    ensures (y * w + x) / w == y && (y * w + x) % w == x
  {
    var p := y * w + x;
    CellUnique(p % w, p / w, x, y, w);
  }

  /** Every cell of the raster has a flat index inside the buffer. */
  lemma CellInRange(x: int, y: int, w: int, h: int)
    requires 0 <= x < w && 0 <= y < h
    ensures 0 <= y * w + x < w * h
  {
    MulMonotone(0, y, w);
    MulMonotone(y + 1, h, w);
    assert (y + 1) * w == y * w + w;
    assert h * w == w * h;
  }

  /** Every flat index inside the buffer is a cell. */
  lemma IndexIsCell(p: int, w: int, h: int)
    requires 0 <= w && 0 <= h && 0 <= p < w * h
    ensures 0 < w && 0 <= p / w < h && 0 <= p % w < w
    ensures p == (p / w) * w + p % w
  {
    var q := p / w;
    if q < 0 {
      MulMonotone(q, -1, w);
    }
    if q >= h {
      MulMonotone(h, q, w);
    }
  }

  /** The buffer index that lands on output index p under the vertical flip:
      same column, row height - 1 - row. */
  function FlipIndex(p: int, w: int, h: int): (q: int)
    requires 0 <= w && 0 <= h && 0 <= p < w * h
    ensures 0 <= q < w * h
  {
    IndexIsCell(p, w, h);
    CellInRange(p % w, h - 1 - p / w, w, h);
    (h - 1 - p / w) * w + p % w
  }

  /** The flip sends cell (x, y) to cell (x, height - 1 - y). */
  lemma FlipIndexOfCell(x: int, y: int, w: int, h: int)
    requires 0 <= x < w && 0 <= y < h && 0 <= h
    ensures 0 <= y * w + x < w * h && FlipIndex(y * w + x, w, h) == (h - 1 - y) * w + x
  {
    CellInRange(x, y, w, h);
    DivModOfCell(x, y, w);
  }

  /** Flipping twice is the identity. */
  lemma FlipInvolution(p: int, w: int, h: int)
    requires 0 <= w && 0 <= h && 0 <= p < w * h
    ensures FlipIndex(FlipIndex(p, w, h), w, h) == p
  {
    IndexIsCell(p, w, h);
    var x, y := p % w, p / w;
    assert p == y * w + x;
    FlipIndexOfCell(x, y, w, h);
    FlipIndexOfCell(x, h - 1 - y, w, h);
  }

  /** The flip is a bijection of the buffer indices: no two storage indices
      land on the same output slot, and every output slot q is the image of
      storage index FlipIndex(q). */
  lemma FlipBijective(w: int, h: int)
    requires 0 <= w && 0 <= h
    ensures forall p, q :: 0 <= p < w * h && 0 <= q < w * h && FlipIndex(p, w, h) == FlipIndex(q, w, h) ==> p == q
    ensures forall q :: 0 <= q < w * h ==> FlipIndex(FlipIndex(q, w, h), w, h) == q
  {
    forall p, q | 0 <= p < w * h && 0 <= q < w * h && FlipIndex(p, w, h) == FlipIndex(q, w, h)
      ensures p == q
    {
      FlipInvolution(p, w, h);
      FlipInvolution(q, w, h);
    }
    forall q | 0 <= q < w * h
      ensures FlipIndex(FlipIndex(q, w, h), w, h) == q
    {
      FlipInvolution(q, w, h);
    }
  }
}

=== FILE: wrappers.dfy ===
/** The wrapper types used throughout the model: Option stands for a
    Java reference that may be null, Result for a call that may throw, and
    Outcome for a void call that may throw. */
module Wrappers {

  datatype Option<+T> = None | Some(value: T)

  datatype Result<+R, +E> = Success(value: R) | Failure(error: E)

  datatype Outcome<+E> = Pass | Fail(error: E)
}
